=== FILE: README.md ===
# ADGM corporate document review — a Dafny model

This project models the decision logic of a review pipeline for Abu Dhabi Global Market
(ADGM) company filings. The pipeline has three parts:

- **Document classification and section detection** (`DocumentProcessor`, document_processor.dfy):
  - Each upload is classified against a fixed, ordered table of six labels (Memorandum of Association, Articles of Association, …).
  - The first pass is exact: a case-insensitive substring search over the file name and the text.
  - The second pass is fuzzy. The similarity score is a parameter of the model; only the `> 80` threshold and the first-match order are modelled.
  - If neither pass matches, the result is "Unknown Document Type".
  - Heading-like lines are detected, and the first ten are kept.
  - Required elements are split into those present and those missing.
- **Keyword retrieval** (`RagEngine`, rag_engine.dfy):
  - The knowledge store is a sequence of JSON values.
  - A query scores each snippet by the share of query words that occur in it. Zero scores are dropped, and the rest are stably sorted by descending score and cut.
  - The retrieval context fills a word budget from the top three hits.
  - Snippets are added one at a time, and the loaded JSON is dispatched on its shape.
- **Compliance rule evaluation** (`ComplianceChecker`, compliance_checker.dfy):
  - A report lists the missing documents in checklist order.
  - It has one high-severity issue per (document, missing section) pair, documents outer and sections inner.
  - It carries a clamped linear score.
  - A separate single-document check returns at most two findings.

Supporting modules:

- `Wrappers` (wrappers.dfy): `Option` and `Result`.
- `Text` (text.dfy): Python `str` operations on ASCII: `lower`, `in`, `strip`, `split('\n')`, `join`, `isupper`, the `^\d+\.` test, and decimal rendering.
- `Words` (words.dfy): Python's argument-less `str.split()`, and its round trips with `' '.join`.
- `Seqs` (seqs.dfy): subsequences and Python's `s[:n]` with negative `n`.

Python dictionaries are ordered; they are modelled as sequences of pairs. A `.get` with a default becomes an `Option` field read with `GetOr`. Where the Python code raises an exception, the model returns a `Result` error:

- `query` on a store entry that is not a dictionary (`.get` on a non-dict);
- `validate_document_completeness` on the error record (no `content` key);
- `validate_document_completeness` with an empty requirement list (the score divides by its length).

## Model

| member | source | states |
|---|---|---|
| DocumentProcessor.FirstHit | document_processor.py:50-53 | the index returned is the first table entry from `from` on with a matching keyword; `None` means no entry from `from` on matches |
| DocumentProcessor.IdentifyDocumentType | document_processor.py:45-61 | the result is a declared label or "Unknown Document Type"; the first label with a keyword in the lowered name or content wins; failing that, the first label with a fuzzy score above 80 wins; with neither, the fallback label |
| DocumentProcessor.LabelsAreNotUnknown | document_processor.py:11-18 | no declared label equals the fallback label, so the fallback result is never confused with a match |
| DocumentProcessor.KeywordOccurrenceDecides | document_processor.py:47-53 | if a keyword of entry i occurs in the lowered name or content, the result is the label of the first matching entry, which is no later than i |
| DocumentProcessor.KeywordsNonEmpty | document_processor.py:11-18 | every declared keyword is non-empty |
| DocumentProcessor.EmptyDocumentIsFuzzyOnly | document_processor.py:52-61 | empty name and content never match in the exact pass; the fuzzy pass alone decides; with no score above 80 the result is "Unknown Document Type" |
| DocumentProcessor.HeadingLines | document_processor.py:89-92 | the kept lines are a subsequence of the input that pass the heading test, and every passing line is kept as often as it occurs |
| DocumentProcessor.Headings | document_processor.py:87-92 | the entries are the stripped lines that pass the heading test, in line order and with their multiplicity; each is already stripped; there are no more entries than lines |
| DocumentProcessor.KeptAreStripped | document_processor.py:90 | whatever is kept from the stripped lines is unchanged by stripping again |
| DocumentProcessor.HeadingsMembership | document_processor.py:89-92 | a string is kept iff some line strips to it and it is non-empty and upper-case, ends with ':' or starts with digits and '.' |
| DocumentProcessor.IdentifySections | document_processor.py:84-94 | at most 10 sections; each is a stripped heading; they are exactly the first min(10, n) heading lines in order |
| DocumentProcessor.ProcessDocument | document_processor.py:20-39 | the error record arises iff extraction failed; the content is the paragraphs joined by '\n'; type, sections and word count are those of that content; the kept paragraphs are the non-blank ones, in order, each as often as in the extraction |
| DocumentProcessor.NonBlank | document_processor.py:30 | the kept paragraphs are a subsequence of the input, none of them blank, and every non-blank paragraph is kept as often as it occurs |
| DocumentProcessor.NonBlankKeepsEvery | document_processor.py:30 | a paragraph whose stripped text is non-empty is among the kept ones |
| DocumentProcessor.Partition | document_processor.py:114-121 | present and missing together are a permutation of the input; each is a subsequence, so input order is kept; every present element occurs lowered in the content and no missing one does |
| DocumentProcessor.ValidateDocumentCompleteness | document_processor.py:110-127 | the error record and an empty requirement list are errors, and a processed record with a non-empty list always succeeds; the result is a partition of the input in order; the counts add up to the input length and an element is present iff its lowered form occurs in the lowered content, missing iff not |
| DocumentProcessor.PartitionMembership | document_processor.py:117-121 | from the partition facts: an input element is in present iff it occurs, and in missing iff it does not |
| Text.Lower | document_processor.py:47-48 | lowering keeps the length and maps each ASCII capital to its small letter, leaving other characters alone |
| Text.SubstringAtOffset | document_processor.py:52 | the substring test holds iff the needle is a prefix of the text at some offset |
| Text.TrimStartShape | document_processor.py:90 | left-stripping drops a whitespace prefix and leaves a suffix that is empty or starts with a non-space |
| Text.Strip | document_processor.py:90 | the stripped string is empty or starts and ends with a non-space; it is empty only for an all-whitespace input |
| Text.StripShape | document_processor.py:90 | the stripped string is the slice of the input between a whitespace prefix and a whitespace suffix |
| Text.StripIdempotent | document_processor.py:90 | stripping twice is stripping once |
| Text.SplitLines | document_processor.py:87 | splitting at '\n' gives at least one piece and no piece contains '\n' |
| Text.JoinSplitLines | document_processor.py:87 | joining the '\n'-split pieces with '\n' gives back the text |
| Text.SplitJoinLines | document_processor.py:43 | '\n'-splitting the '\n'-join of '\n'-free lines gives back the lines |
| Text.NumberedPattern | document_processor.py:91 | the numbered-heading test holds iff one or more leading digits are followed by '.' |
| Text.LeadingDigits | document_processor.py:91 | the run counted is all digits and is followed by a non-digit or the end |
| Text.NatToStringRoundTrip | compliance_checker.py:77 | reading back the decimal rendering of a count gives the count |
| Words.TakeWordShape | rag_engine.py:89 | a word is the leading run of non-space characters, cut at the first space |
| Words.SplitYieldsWords | rag_engine.py:89 | every piece of the argument-less split is a non-empty run of non-space characters |
| Words.SplitAroundSpace | rag_engine.py:99 | splitting text made of two parts with whitespace between them gives the split of each part, in order |
| Words.SplitJoin | rag_engine.py:99 | the words of parts joined by a whitespace separator are the words of each part, in order, so the word counts add up |
| Words.SplitJoinWords | rag_engine.py:96 | splitting words joined by ' ' gives back the words |
| Words.PrefixWordCount | rag_engine.py:94-96 | the ' '-join of the first k words of a text has exactly k words |
| Seqs.PyPrefix | rag_engine.py:78 | `s[:n]` is a prefix of `s` of length min(n, len) for n ≥ 0 and max(len + n, 0) for n < 0 |
| Seqs.SubsequenceLength | compliance_checker.py:23 | a filtered list is no longer than the list it is taken from |
| Seqs.SubsequenceMembership | compliance_checker.py:23 | every element of a filtered list is an element of the original |
| Seqs.SubsequencePrepend | compliance_checker.py:23 | a subsequence stays one when the same element is put in front of both, or in front of the larger one only |
| RagEngine.Lookup | rag_engine.py:58 | a found value belongs to a field with that key; `None` means no field has the key |
| RagEngine.FirstNonRecord | rag_engine.py:57-58 | the index is that of the first store entry that is not a dictionary |
| RagEngine.MatchCount | rag_engine.py:61-67 | the count never exceeds the number of query words |
| RagEngine.MatchCountAppend | rag_engine.py:65-67 | the count over two runs of query words is the sum of the counts over each |
| RagEngine.MatchCountIsOccurrences | rag_engine.py:65-67 | the count is the number of positions in the query whose word occurs in the text, so a repeated query word counts once per repetition |
| RagEngine.MatchCountPositive | rag_engine.py:65-69 | the count is positive iff some query word occurs in the lowered content |
| RagEngine.HitOf | rag_engine.py:57-74 | an entry yields a hit iff it is a dictionary with string content and some query word occurs in it; the hit carries that content; its score is the match count over the number of query words, in (0, 1]; its metadata is the entry's `metadata` value, `{}` when absent |
| RagEngine.Candidates | rag_engine.py:54-74 | at most one hit per entry, every score in (0, 1] |
| RagEngine.CandidatesAppend | rag_engine.py:57-74 | the hits of two store ranges are those of each, in store order |
| RagEngine.CandidateMembership | rag_engine.py:57-74 | a hit is collected iff some store entry yields it |
| RagEngine.InsertByScore | rag_engine.py:77 | inserting into a descending list keeps it descending and adds exactly that element |
| RagEngine.SortByScore | rag_engine.py:77 | the result is descending by score and a permutation of the input |
| RagEngine.InsertByScoreStable | rag_engine.py:77 | insertion places the new element before every equal-score element already in the list |
| RagEngine.SortByScoreStable | rag_engine.py:77 | for every score, the elements with that score keep their input order (stability) |
| RagEngine.Query | rag_engine.py:52-78 | fails iff some entry is not a dictionary, naming the first; otherwise the result is the prefix of the sorted hits cut as `[:n]` cuts: min(n, hits) for n ≥ 0 and max(hits + n, 0) for n < 0; descending, with scores in (0, 1] |
| RagEngine.QueryMembership | rag_engine.py:57-78 | with n_results at least the store size, the returned hits are, as a multiset, the hits the store yields; a hit is returned iff some entry yields it |
| RagEngine.QueryTiesInStoreOrder | rag_engine.py:76-78 | the returned hits of each score are a prefix of that score's hits in store order |
| RagEngine.WithScorePrefix | rag_engine.py:78 | cutting a list cuts each score's hits to a prefix of them |
| RagEngine.ContextParts | rag_engine.py:86-97 | the walk returns no more parts than hits, and the words already spent plus the words of the parts never exceed the budget (or what was already spent, if more) |
| RagEngine.CutTo | rag_engine.py:94-96 | the cut splits into exactly the first n words of the snippet, so it has n words |
| RagEngine.ContextTakesWhole | rag_engine.py:90-92 | if the first snippet fits, it followed by a context of the rest (with its words added to the total) is a context of the whole list, stopping one rank later |
| RagEngine.ContextDropsWhole | rag_engine.py:90-92 | conversely, a context that stops after the first rank starts with the whole first snippet, which fits, and continues with a context of the rest |
| RagEngine.ContextCuts | rag_engine.py:93-97 | if the first snippet overflows, the context stops at rank 0: it is that snippet cut to exactly the remaining words when some budget remains, and empty otherwise |
| RagEngine.ContextPartsWalk | rag_engine.py:86-97 | the walk's parts meet the context description for some stopping rank k: every snippet before k fits after those before it, the snippet at k (if any) overflows, and the parts are the snippets before k whole followed by the snippet at k cut to the remaining budget when some remains |
| RagEngine.ContextUnique | rag_engine.py:86-97 | any parts meeting the context description are the walk's parts, so the description determines the context |
| RagEngine.RelevantParts | rag_engine.py:80-97 | fails iff the query fails; at most 3 parts; their total word count is at most max(max_tokens, 0) |
| RagEngine.RelevantPartsAreContext | rag_engine.py:80-97 | on a store of dictionaries, the parts are the context described above for the top three hits of the query, starting from zero words spent |
| RagEngine.GetRelevantContext | rag_engine.py:80-99 | fails iff the query fails; the words of the context are the words of the parts, in order, so there are at most max(max_tokens, 0) of them |
| RagEngine.ParagraphBreakIsSpace | rag_engine.py:99 | the paragraph separator is non-empty whitespace, so it adds no words |
| RagEngine.CheckCompliance | rag_engine.py:101-110 | always compliant with no issues or suggestions; the context used is the retrieval context of the regulation query with a 1000-word budget, so it has at most 1000 words; fails only when the store has a non-dictionary entry |
| RagEngine.CheckComplianceIgnoresDocument | rag_engine.py:101-110 | the answer does not depend on the document content |
| RagEngine.AddDocument | rag_engine.py:46-50 | one entry is appended with the given content and metadata defaulting to `{}`; earlier entries are unchanged; the index returned is the old length |
| RagEngine.AddedSnippetIsCandidate | rag_engine.py:46-74 | after adding, a query's hits are the old hits followed by the new snippet's hit, when some query word occurs in it |
| RagEngine.Flatten | rag_engine.py:31-35 | every loaded entry is an element of some list value or is some non-list value of the object |
| RagEngine.FlattenAppend | rag_engine.py:31-35 | flattening keeps key order across key ranges |
| RagEngine.FlattenField | rag_engine.py:31-35 | the entries of each field (a list value's items in order, once each, or the value itself) sit between those of the fields before and after it |
| RagEngine.FlattenKeepsValues | rag_engine.py:31-35 | every element of a list value and every non-list value is loaded |
| RagEngine.LoadKnowledgeBase | rag_engine.py:23-44 | a JSON object extends the current entries with its flattened values; a list replaces them; any other value becomes the only entry; a text file becomes one entry holding exactly its content and source, and no metadata; any read or parse failure leaves the store empty |
| RagEngine.TextSnippetHasNoMetadata | rag_engine.py:41 | a hit on the snippet loaded from a text file carries the default metadata `{}` |
| RagEngine.NewEngine | rag_engine.py:9-21 | the store is loaded only for a non-empty, existing file name, and is empty otherwise |
| ComplianceChecker.FromProcessed | document_processor.py:26-39 | a processed record carries its name, type and content; the error record carries the name only |
| ComplianceChecker.UploadedTypes | compliance_checker.py:19 | one type per upload in order, 'unknown' when absent |
| ComplianceChecker.MissingDocuments | compliance_checker.py:23 | a subsequence of the required list with no uploaded type in it; each non-uploaded label keeps its multiplicity, so duplicates are kept |
| ComplianceChecker.SectionIssue | compliance_checker.py:35-42 | the issue is high, names the document and the section, reads "Missing required section: " and the section, and cites the requirement's reference or 'ADGM regulations' |
| ComplianceChecker.EverySectionIssue | compliance_checker.py:33-42 | one issue per required section, in checklist order |
| ComplianceChecker.SectionIssues | compliance_checker.py:30-42 | the issues of one document are a subsequence of the per-section issues in checklist order, each for a section whose lowered name is absent from the lowered content |
| ComplianceChecker.SectionIssuesKeepMissing | compliance_checker.py:30-42 | every per-section issue whose lowered section name is absent from the lowered content is kept as often as the checklist gives it, and no other issue is kept |
| ComplianceChecker.SectionIssueIffMissing | compliance_checker.py:33-35 | a section's issue is emitted iff its lowered name is not a substring of the lowered content |
| ComplianceChecker.LongerNeverOccurs | compliance_checker.py:34 | a section name longer than the content never occurs in it |
| ComplianceChecker.NoContentFlagsEverySection | compliance_checker.py:30-35 | a document without content gets an issue for every non-empty required section, in order |
| ComplianceChecker.FailedDocumentFlagsEverySection | compliance_checker.py:30-35 | the error record of a failed extraction gets an issue for every non-empty required section |
| ComplianceChecker.ReportIssues | compliance_checker.py:28-42 | at most documents × sections issues, each high with the missing-section description |
| ComplianceChecker.IssuesOfSubsequence | compliance_checker.py:34-42 | taking a subsequence of section issues keeps them all high with the missing-section description |
| ComplianceChecker.ReportIssuesAppend | compliance_checker.py:28-42 | the issues of two document batches are those of each, documents outer |
| ComplianceChecker.ReportIssuesOfDocument | compliance_checker.py:28-42 | the issues of document i are exactly its own section issues, placed after those of the documents before it and before those of the documents after it |
| ComplianceChecker.SectionIssueOrigin | compliance_checker.py:33-42 | every finding of a document is that of a required section whose lowered name is absent from the lowered content |
| ComplianceChecker.ReportIssueMembership | compliance_checker.py:28-42 | a finding is in the report iff it is the finding of some (document, section) pair whose lowered section name is not in the lowered content |
| ComplianceChecker.ReportedIsFlagged | compliance_checker.py:28-42 | every reported finding comes from such a missing pair |
| ComplianceChecker.FlaggedIsReported | compliance_checker.py:28-42 | every such missing pair has its finding reported |
| ComplianceChecker.ComplianceScore | compliance_checker.py:51 | the score lies in [0, 100]; when positive, it plus 20 per missing document plus 10 per issue is 100; it is 0 iff those penalties reach 100 |
| ComplianceChecker.ScoreNonIncreasing | compliance_checker.py:51 | more missing documents or more issues never raise the score |
| ComplianceChecker.GenerateReport | compliance_checker.py:16-52 | the counts and the passed-through fields are as given; missing documents are the required labels not among the uploaded types, in checklist order, each as often as the checklist lists it; the issues are the per-document section issues; the score is computed from the two counts |
| ComplianceChecker.MemorandumOnlyScenario | compliance_checker.py:16-51 | one memorandum without a shareholders section, checked against a list requiring memorandum and articles: the articles are missing, there is one high issue citing the checklist's reference, and the score is 70 |
| ComplianceChecker.CheckDocument | compliance_checker.py:54-83 | exactly one finding per failed check and no others (so at most two); a high "Document Type" finding iff the type is not allowed; a medium "Content" finding iff the lowered content is shorter than the minimum (100 by default); the type finding comes first |
| ComplianceChecker.FindingsInOrder | compliance_checker.py:56-83 | a type finding list followed by a content finding list (each of length at most one) has each kind exactly when its part is non-empty, tells the kinds apart by severity, and puts the type finding first |
| ComplianceChecker.TypeIssues | compliance_checker.py:58-68 | one high "Document Type" finding exactly when the type is not allowed |
| ComplianceChecker.ContentIssues | compliance_checker.py:70-81 | one medium "Content" finding exactly when the content is too short |

## Left out

- Reading .docx files (document_processor.py:20-43, 63-82). `docx.Document`, paragraph and table extraction and core properties are library calls. The model takes the extraction result as an input (`Extraction`), with a failed read as one of its variants.
- The fuzzy similarity `fuzz.partial_ratio` (document_processor.py:58) is a foreign library call. It is a function parameter, and only its `> 80` threshold and the scan order are modelled.
- `extract_key_clauses` (document_processor.py:96-108) depends on Python regular-expression semantics: lazy matching, DOTALL, lookahead, and user text used unescaped as a pattern. None of these can be modelled faithfully.
- DocumentProcessor.ValidateDocumentCompleteness: does not compute the floating-point `completeness_score` (document_processor.py:126). It keeps only the present/missing split, and the empty list is modelled as the division error it raises.
- File I/O and logging in `load_knowledge_base`, the constructor and `load_checklist` (rag_engine.py:20, 26-28, 40-44; compliance_checker.py:11-14):
  - Whether the file exists, its contents and the JSON parser are parameters.
  - `load_checklist` only reads a file into a dictionary, so the checklist is an input datatype.
- The JSON parser itself. JSON numbers are kept as `real`, and only the shape of the parsed value matters.
- Unicode:
  - `Lower`, `IsUpper` and the digit test are restricted to ASCII.
  - Whitespace for `split()` and `strip()` is the ASCII whitespace set.
  - Python's full Unicode case mapping and whitespace classes are not modelled.
- RagEngine.LoadKnowledgeBase: a parsed JSON object is taken to have distinct keys. Python's `json` keeps only the last value of a repeated key, while the model's list of pairs keeps every copy, so `Lookup` and `Flatten` would see the earlier copies too.
- RagEngine.HitOf: the score is an exact fraction, where Python divides to a float (rag_engine.py:73). All hits of one query share the denominator and correctly rounded division is monotone, so the ranking is unchanged; two different counts over the same word count differ by far more than the rounding error, so ties are unchanged too.
- RagEngine.AddDocument: `metadata or {}` also replaces other falsy metadata (such as an empty list) with `{}`; the model only distinguishes absent metadata from a given dictionary.
- RagEngine.Query: an entry whose `metadata` key is missing gets `{}`, as in the program; metadata of another type is passed through as a JSON value.
- ComplianceChecker.GenerateReport: a section's requirements are modelled as a record with an optional reference. A requirements value that is not a dictionary, which would make `.get` raise, is not modelled.
- ComplianceChecker.DocRecord: a field that is present but not a string, such as a `None` content that would make `.lower()` raise, is not modelled. Fields are either absent or strings.
- app.py (the Streamlit interface, session state and download buttons) is not part of this model. It holds no decision logic.

=== FILE: compliance_checker.dfy ===
/** Evaluation of uploaded documents against a process checklist: missing
    documents, missing sections, the aggregate score, and the separate
    single-document check. */
module ComplianceChecker {
  import opened Wrappers
  import opened Text
  import opened Seqs
  import DocumentProcessor

  datatype Severity = Low | Medium | High

  /** One finding; `document` names the file it concerns. */
  datatype Issue = Issue(document: string, section: string, description: string,
                         severity: Severity, suggestion: string, reference: string)

  /** An uploaded document as the checker reads it: any field may be absent. */
  datatype DocRecord = DocRecord(filename: Option<string>, docType: Option<string>, content: Option<string>)

  /** The requirements attached to one required section. */
  datatype SectionRequirement = SectionRequirement(reference: Option<string>)

  /** The checklist of one process type; every key may be absent. */
  datatype Checklist = Checklist(
    requiredDocuments: Option<seq<string>>,
    requiredSections: Option<seq<(string, SectionRequirement)>>,
    allowedDocumentTypes: Option<seq<string>>,
    minimumContentLength: Option<int>)

  datatype Report = Report(
    totalDocuments: nat,
    requiredDocuments: nat,
    missingDocuments: seq<string>,
    uploadedDocuments: seq<DocRecord>,
    issues: seq<Issue>,
    processType: string,
    complianceScore: int)

  const UnknownFilename: string := "Unknown"
  const UnknownType: string := "unknown"
  const DefaultReference: string := "ADGM regulations"
  const DefaultMinimumContentLength: int := 100
  const MissingSectionPrefix: string := "Missing required section: "
  const TypeSection: string := "Document Type"
  const ContentSection: string := "Content"

  /** The record the checker sees for a processed upload; the error record has
      a file name but neither type nor content. */
  function FromProcessed(d: DocumentProcessor.Document): (r: DocRecord)
    ensures r.filename == Some(d.filename)
    ensures d.Processed? ==> r.docType == Some(d.docType) && r.content == Some(d.content)
    ensures d.Failed? ==> r.docType.None? && r.content.None?
  {
    match d
    case Processed(filename, docType, content, _, _, _, _, _) => DocRecord(Some(filename), Some(docType), Some(content))
    case Failed(_, filename) => DocRecord(Some(filename), None, None)
  }

  function FilenameOf(d: DocRecord): string { d.filename.GetOr(UnknownFilename) }

  function TypeOf(d: DocRecord): string { d.docType.GetOr(UnknownType) }

  /** The lowered content, `""` when absent. */
  function LoweredContent(d: DocRecord): string { Lower(d.content.GetOr([])) }

  function RequiredDocuments(c: Checklist): seq<string> { c.requiredDocuments.GetOr([]) }

  function RequiredSections(c: Checklist): seq<(string, SectionRequirement)> { c.requiredSections.GetOr([]) }

  function AllowedTypes(c: Checklist): seq<string> { c.allowedDocumentTypes.GetOr([]) }

  function MinimumLength(c: Checklist): int { c.minimumContentLength.GetOr(DefaultMinimumContentLength) }

  /** The type of each uploaded document, in upload order. */
  function UploadedTypes(docs: seq<DocRecord>): (r: seq<string>)
    ensures |r| == |docs|
    ensures forall i :: 0 <= i < |docs| ==> r[i] == TypeOf(docs[i])
  {
    if docs == [] then [] else [TypeOf(docs[0])] + UploadedTypes(docs[1..])
  }

  /** The required documents whose label no upload carries, in checklist order. */
  function MissingDocuments(required: seq<string>, uploaded: seq<string>): (r: seq<string>)
    ensures IsSubsequence(r, required)
    ensures forall i :: 0 <= i < |r| ==> r[i] !in uploaded
    ensures forall x :: x !in uploaded ==> multiset(r)[x] == multiset(required)[x]
    ensures forall x :: x in uploaded ==> multiset(r)[x] == 0
  {
    if required == [] then []
    else
      var rest := MissingDocuments(required[1..], uploaded);
      SubsequencePrepend(rest, required[1..], required[0]);
      assert required == [required[0]] + required[1..];
      if required[0] in uploaded then rest else [required[0]] + rest
  }

  /** A high finding whose description names its section as missing. */
  predicate IsMissingSectionIssue(i: Issue) {
    i.severity == High && i.description == MissingSectionPrefix + i.section
  }

  /** The finding for a section absent from a document. */
  function SectionIssue(filename: string, section: (string, SectionRequirement)): (i: Issue)
    ensures i.document == filename && i.section == section.0 && IsMissingSectionIssue(i)
    ensures i.reference == section.1.reference.GetOr(DefaultReference)
  {
    Issue(filename, section.0, MissingSectionPrefix + section.0, High,
          "Add the " + section.0 + " section as per ADGM requirements",
          section.1.reference.GetOr(DefaultReference))
  }

  /** The finding for every required section, whether present or not. */
  function EverySectionIssue(filename: string, sections: seq<(string, SectionRequirement)>): (r: seq<Issue>)
    ensures |r| == |sections|
    ensures forall j :: 0 <= j < |sections| ==> r[j] == SectionIssue(filename, sections[j])
  {
    if sections == [] then []
    else [SectionIssue(filename, sections[0])] + EverySectionIssue(filename, sections[1..])
  }

  /** The findings for one document: one per required section whose lowered
      name does not occur in the lowered content, in checklist order. */
  function SectionIssues(d: DocRecord, sections: seq<(string, SectionRequirement)>): (r: seq<Issue>)
    ensures IsSubsequence(r, EverySectionIssue(FilenameOf(d), sections))
    ensures |r| <= |sections|
    ensures forall k :: 0 <= k < |r| ==> !IsSubstring(Lower(r[k].section), LoweredContent(d))
  {
    if sections == [] then []
    else
      var name := FilenameOf(d);
      var rest := SectionIssues(d, sections[1..]);
      var every := EverySectionIssue(name, sections);
      assert every == [SectionIssue(name, sections[0])] + EverySectionIssue(name, sections[1..]);
      SubsequencePrepend(rest, EverySectionIssue(name, sections[1..]), SectionIssue(name, sections[0]));
      SubsequenceLength(rest, EverySectionIssue(name, sections[1..]));
      if IsSubstring(Lower(sections[0].0), LoweredContent(d)) then rest
      else [SectionIssue(name, sections[0])] + rest
  }

  /** The findings of one document are exactly the per-section findings whose
      section is absent, each as often as the checklist gives it. */
  lemma {:induction false} SectionIssuesKeepMissing(d: DocRecord, sections: seq<(string, SectionRequirement)>)
    ensures KeepsMissing(SectionIssues(d, sections), EverySectionIssue(FilenameOf(d), sections), LoweredContent(d))
  {
    if sections != [] {
      var name := FilenameOf(d);
      var rest := SectionIssues(d, sections[1..]);
      var tail := EverySectionIssue(name, sections[1..]);
      var issue := SectionIssue(name, sections[0]);
      assert EverySectionIssue(name, sections) == [issue] + tail;
      SectionIssuesKeepMissing(d, sections[1..]);
      MissingStep(rest, tail, issue, LoweredContent(d), SectionIssues(d, sections));
    }
  }

  /** `r` holds every finding of `every` whose section is absent from
      `content`, as often as `every` does, and nothing else. */
  ghost predicate KeepsMissing(r: seq<Issue>, every: seq<Issue>, content: string) {
    forall x :: multiset(r)[x] == if !IsSubstring(Lower(x.section), content) then multiset(every)[x] else 0
  }

  lemma MissingStep(rest: seq<Issue>, tail: seq<Issue>, issue: Issue, content: string, r: seq<Issue>)
    requires KeepsMissing(rest, tail, content)
    requires r == if IsSubstring(Lower(issue.section), content) then rest else [issue] + rest
    ensures KeepsMissing(r, [issue] + tail, content)
  {
  }

  /** A document gets the finding for required section `j` exactly when the
      lowered section name does not occur in its lowered content. */
  lemma {:induction false} SectionIssueIffMissing(d: DocRecord, sections: seq<(string, SectionRequirement)>, j: nat)
    requires j < |sections|
    ensures SectionIssue(FilenameOf(d), sections[j]) in SectionIssues(d, sections)
            <==> !IsSubstring(Lower(sections[j].0), LoweredContent(d))
  {
    var issue := SectionIssue(FilenameOf(d), sections[j]);
    var r := SectionIssues(d, sections);
    if issue in r {
      var k :| 0 <= k < |r| && r[k] == issue;
    }
    if !IsSubstring(Lower(sections[j].0), LoweredContent(d)) {
      if j == 0 {
        assert r[0] == issue;
      } else {
        SectionIssueIffMissing(d, sections[1..], j - 1);
        assert sections[1..][j - 1] == sections[j];
      }
    }
  }

  /** A needle longer than the text never occurs in it. */
  lemma {:induction false} LongerNeverOccurs(needle: string, hay: string)
    requires |needle| > |hay|
    ensures !IsSubstring(needle, hay)
    decreases |hay|
  {
    if |hay| > 0 {
      LongerNeverOccurs(needle, hay[1..]);
    }
  }

  /** A document without content, such as the error record of a failed
      extraction, gets a finding for every required section with a non-empty
      name, in checklist order. */
  lemma {:induction false} NoContentFlagsEverySection(d: DocRecord, sections: seq<(string, SectionRequirement)>)
    requires d.content.None?
    requires forall j :: 0 <= j < |sections| ==> |sections[j].0| > 0
    ensures SectionIssues(d, sections) == EverySectionIssue(FilenameOf(d), sections)
  {
    if sections != [] {
      assert LoweredContent(d) == [];
      LongerNeverOccurs(Lower(sections[0].0), LoweredContent(d));
      NoContentFlagsEverySection(d, sections[1..]);
      assert EverySectionIssue(FilenameOf(d), sections)[1..] == EverySectionIssue(FilenameOf(d), sections[1..]);
    }
  }

  /** The error record of a failed extraction is checked as a document without
      content. */
  lemma FailedDocumentFlagsEverySection(d: DocumentProcessor.Document, sections: seq<(string, SectionRequirement)>)
    requires d.Failed?
    requires forall j :: 0 <= j < |sections| ==> |sections[j].0| > 0
    ensures SectionIssues(FromProcessed(d), sections) == EverySectionIssue(d.filename, sections)
  {
    NoContentFlagsEverySection(FromProcessed(d), sections);
  }

  /** All findings of `generate_report`: document order outer, section order inner. */
  function ReportIssues(docs: seq<DocRecord>, sections: seq<(string, SectionRequirement)>): (r: seq<Issue>)
    ensures |r| <= |docs| * |sections|
    ensures forall k :: 0 <= k < |r| ==> IsMissingSectionIssue(r[k])
  {
    if docs == [] then []
    else
      var first := SectionIssues(docs[0], sections);
      var rest := ReportIssues(docs[1..], sections);
      MultiplyStep(|docs|, |sections|);
      IssuesOfSubsequence(first, EverySectionIssue(FilenameOf(docs[0]), sections));
      first + rest
  }

  /** The findings of document `i` sit between those of the documents before
      and after it. */
  lemma {:induction false} ReportIssuesOfDocument(docs: seq<DocRecord>, sections: seq<(string, SectionRequirement)>, i: nat)
    requires i < |docs|
    ensures ReportIssues(docs, sections)
         == ReportIssues(docs[..i], sections) + SectionIssues(docs[i], sections) + ReportIssues(docs[i + 1..], sections)
  {
    assert docs == docs[..i] + ([docs[i]] + docs[i + 1..]);
    ReportIssuesAppend(docs[..i], [docs[i]] + docs[i + 1..], sections);
    ReportIssuesAppend([docs[i]], docs[i + 1..], sections);
    assert ReportIssues([docs[i]], sections) == SectionIssues(docs[i], sections) by {
      assert [docs[i]][1..] == [];
    }
  }

  lemma MultiplyStep(a: nat, b: nat)
    requires a > 0
    ensures a * b == b + (a - 1) * b
  {
  }

  /** The findings of a subsequence of section findings are all high and name
      their section. */
  lemma {:induction false} IssuesOfSubsequence(a: seq<Issue>, b: seq<Issue>)
    requires IsSubsequence(a, b)
    requires forall k :: 0 <= k < |b| ==> IsMissingSectionIssue(b[k])
    ensures forall k :: 0 <= k < |a| ==> IsMissingSectionIssue(a[k])
    decreases |b|
  {
    if a != [] {
      if a[0] == b[0] && IsSubsequence(a[1..], b[1..]) {
        IssuesOfSubsequence(a[1..], b[1..]);
        assert forall k :: 1 <= k < |a| ==> a[k] == a[1..][k - 1];
      } else {
        IssuesOfSubsequence(a, b[1..]);
      }
    }
  }

  /** The findings of two batches of documents are those of each, in order. */
  lemma {:induction false} ReportIssuesAppend(a: seq<DocRecord>, b: seq<DocRecord>, sections: seq<(string, SectionRequirement)>)
    ensures ReportIssues(a + b, sections) == ReportIssues(a, sections) + ReportIssues(b, sections)
  {
    if a == [] {
      assert a + b == b;
    } else {
      var first := SectionIssues(a[0], sections);
      assert (a + b)[0] == a[0] && (a + b)[1..] == a[1..] + b;
      assert ReportIssues(a + b, sections) == first + ReportIssues(a[1..] + b, sections);
      ReportIssuesAppend(a[1..], b, sections);
      ConcatAssoc(first, ReportIssues(a[1..], sections), ReportIssues(b, sections));
    }
  }

  /** Section `j` is missing from document `i` and `issue` is its finding. */
  predicate FlaggedPair(docs: seq<DocRecord>, sections: seq<(string, SectionRequirement)>, issue: Issue) {
    exists i, j :: 0 <= i < |docs| && 0 <= j < |sections|
      && issue == SectionIssue(FilenameOf(docs[i]), sections[j])
      && !IsSubstring(Lower(sections[j].0), LoweredContent(docs[i]))
  }

  /** A finding is reported exactly when it is the finding of some (document,
      section) pair whose lowered section name does not occur in the lowered
      content. */
  lemma ReportIssueMembership(docs: seq<DocRecord>, sections: seq<(string, SectionRequirement)>, issue: Issue)
    ensures issue in ReportIssues(docs, sections) <==> FlaggedPair(docs, sections, issue)
  {
    if issue in ReportIssues(docs, sections) {
      ReportedIsFlagged(docs, sections, issue);
    }
    if FlaggedPair(docs, sections, issue) {
      FlaggedIsReported(docs, sections, issue);
    }
  }

  /** A finding of one document is that of a required section whose lowered
      name does not occur in the lowered content; `j` is that section. */
  lemma SectionIssueOrigin(d: DocRecord, sections: seq<(string, SectionRequirement)>, issue: Issue) returns (j: nat)
    requires issue in SectionIssues(d, sections)
    ensures j < |sections| && issue == SectionIssue(FilenameOf(d), sections[j])
    ensures !IsSubstring(Lower(sections[j].0), LoweredContent(d))
  {
    var r := SectionIssues(d, sections);
    var every := EverySectionIssue(FilenameOf(d), sections);
    SubsequenceMembership(r, every, issue);
    j :| 0 <= j < |every| && every[j] == issue;
    var k :| 0 <= k < |r| && r[k] == issue;
  }

  /** Every reported finding comes from a missing (document, section) pair. */
  lemma {:induction false} ReportedIsFlagged(docs: seq<DocRecord>, sections: seq<(string, SectionRequirement)>, issue: Issue)
    requires issue in ReportIssues(docs, sections)
    ensures FlaggedPair(docs, sections, issue)
  {
    var first := SectionIssues(docs[0], sections);
    var rest := ReportIssues(docs[1..], sections);
    assert ReportIssues(docs, sections) == first + rest;
    if issue in first {
      var j := SectionIssueOrigin(docs[0], sections, issue);
      assert 0 < |docs|;
    } else {
      ReportedIsFlagged(docs[1..], sections, issue);
      var i, j :| 0 <= i < |docs[1..]| && 0 <= j < |sections|
        && issue == SectionIssue(FilenameOf(docs[1..][i]), sections[j])
        && !IsSubstring(Lower(sections[j].0), LoweredContent(docs[1..][i]));
      var d := docs[i + 1];
      assert docs[1..][i] == d;
      assert issue == SectionIssue(FilenameOf(d), sections[j]) && !IsSubstring(Lower(sections[j].0), LoweredContent(d));
    }
  }

  /** Every missing (document, section) pair has its finding reported. */
  lemma {:induction false} FlaggedIsReported(docs: seq<DocRecord>, sections: seq<(string, SectionRequirement)>, issue: Issue)
    requires FlaggedPair(docs, sections, issue)
    ensures issue in ReportIssues(docs, sections)
  {
    var first := SectionIssues(docs[0], sections);
    var rest := ReportIssues(docs[1..], sections);
    assert ReportIssues(docs, sections) == first + rest;
    var i, j :| 0 <= i < |docs| && 0 <= j < |sections|
      && issue == SectionIssue(FilenameOf(docs[i]), sections[j])
      && !IsSubstring(Lower(sections[j].0), LoweredContent(docs[i]));
    if i == 0 {
      SectionIssueIffMissing(docs[0], sections, j);
    } else {
      assert docs[1..][i - 1] == docs[i];
      FlaggedIsReported(docs[1..], sections, issue);
    }
  }

  /** The aggregate score: 100, less 20 per missing document and 10 per finding,
      never below 0. */
  function ComplianceScore(missing: nat, issues: nat): (r: int)
    ensures 0 <= r <= 100
    ensures r > 0 ==> r + 20 * missing + 10 * issues == 100
    ensures r == 0 <==> 20 * missing + 10 * issues >= 100
  {
    var raw := 100 - missing * 20 - issues * 10;
    if raw > 0 then raw else 0
  }

  /** More missing documents or more findings never raise the score. */
  lemma ScoreNonIncreasing(m1: nat, i1: nat, m2: nat, i2: nat)
    requires m1 <= m2 && i1 <= i2
    ensures ComplianceScore(m2, i2) <= ComplianceScore(m1, i1)
  {
  }

  /** `generate_report`. */
  function GenerateReport(documents: seq<DocRecord>, processType: string, checklist: Checklist): (r: Report)
    ensures r.totalDocuments == |documents| && r.requiredDocuments == |RequiredDocuments(checklist)|
    ensures r.uploadedDocuments == documents && r.processType == processType
    ensures IsSubsequence(r.missingDocuments, RequiredDocuments(checklist))
    ensures forall x :: x in r.missingDocuments <==> x in RequiredDocuments(checklist) && x !in UploadedTypes(documents)
    ensures forall x :: multiset(r.missingDocuments)[x]
                        == if x in UploadedTypes(documents) then 0 else multiset(RequiredDocuments(checklist))[x]
    ensures r.missingDocuments == MissingDocuments(RequiredDocuments(checklist), UploadedTypes(documents))
    ensures r.issues == ReportIssues(documents, RequiredSections(checklist))
    ensures |r.issues| <= |documents| * |RequiredSections(checklist)|
    ensures r.complianceScore == ComplianceScore(|r.missingDocuments|, |r.issues|)
  {
    var uploaded := UploadedTypes(documents);
    var required := RequiredDocuments(checklist);
    var missing := MissingDocuments(required, uploaded);
    assert forall x :: x in missing <==> x in required && x !in uploaded by {
      forall x ensures x in missing <==> x in required && x !in uploaded {
        assert x in missing <==> x in multiset(missing);
        assert x in required <==> x in multiset(required);
      }
    }
    var issues := ReportIssues(documents, RequiredSections(checklist));
    Report(|documents|, |required|, missing, documents, issues, processType,
           ComplianceScore(|missing|, |issues|))
  }

  /** One uploaded memorandum without a shareholders section, against a
      checklist requiring a memorandum and articles: the articles are missing,
      there is one high finding citing the checklist's reference, and the score
      is 100 - 20 - 10 = 70. */
  lemma MemorandumOnlyScenario()
    ensures var doc := DocRecord(Some("MOA.docx"), Some("Memorandum of Association"), Some("MOA"));
      var checklist := Checklist(
        Some(["Memorandum of Association", "Articles of Association"]),
        Some([("Shareholders", SectionRequirement(Some("ADGM Co Reg Regs, s.12")))]),
        None, None);
      var r := GenerateReport([doc], "Company Incorporation", checklist);
      && r.missingDocuments == ["Articles of Association"]
      && |r.issues| == 1 && r.issues[0].severity == High
      && r.issues[0].reference == "ADGM Co Reg Regs, s.12"
      && r.complianceScore == 70
  {
    var doc := DocRecord(Some("MOA.docx"), Some("Memorandum of Association"), Some("MOA"));
    var sections := [("Shareholders", SectionRequirement(Some("ADGM Co Reg Regs, s.12")))];
    LongerNeverOccurs(Lower(sections[0].0), LoweredContent(doc));
    assert SectionIssues(doc, sections[1..]) == [];
    assert SectionIssues(doc, sections) == [SectionIssue(FilenameOf(doc), sections[0])];
    assert ReportIssues([doc][1..], sections) == [];
    var required := ["Memorandum of Association", "Articles of Association"];
    var uploaded := UploadedTypes([doc]);
    assert uploaded == ["Memorandum of Association"];
    assert required[1] != required[0] by {
      assert required[1][0] != required[0][0];
    }
    assert MissingDocuments(required[1..][1..], uploaded) == [];
    assert MissingDocuments(required[1..], uploaded) == ["Articles of Association"];
  }

  /** `check_document`: a high finding when the type is not allowed, then a
      medium finding when the lowered content is shorter than the minimum
      length (100 by default). */
  function CheckDocument(d: DocRecord, checklist: Checklist): (r: seq<Issue>)
    ensures |r| <= 2
    ensures |r| == (if TypeOf(d) in AllowedTypes(checklist) then 0 else 1)
                 + (if |LoweredContent(d)| < MinimumLength(checklist) then 1 else 0)
    ensures (exists k :: 0 <= k < |r| && r[k].section == TypeSection) <==> TypeOf(d) !in AllowedTypes(checklist)
    ensures (exists k :: 0 <= k < |r| && r[k].section == ContentSection) <==> |LoweredContent(d)| < MinimumLength(checklist)
    ensures forall k :: 0 <= k < |r| ==> r[k].document == FilenameOf(d)
    ensures forall k :: 0 <= k < |r| ==> (r[k].section == TypeSection <==> r[k].severity == High)
    ensures forall k :: 0 <= k < |r| ==> (r[k].section == ContentSection <==> r[k].severity == Medium)
    ensures forall k, m :: 0 <= k < |r| && 0 <= m < |r| && r[k].section == TypeSection && r[m].section == ContentSection ==> k < m
  {
    var typeIssues := TypeIssues(d, checklist);
    var contentIssues := ContentIssues(d, checklist);
    FindingsInOrder(typeIssues, contentIssues, FilenameOf(d));
    typeIssues + contentIssues
  }

  /** At most one type finding followed by at most one content finding: each
      kind is present exactly when its part is non-empty, its severity tells
      the kinds apart, and the type finding comes first. */
  lemma FindingsInOrder(t: seq<Issue>, c: seq<Issue>, name: string)
    requires |t| <= 1 && |c| <= 1
    requires forall k :: 0 <= k < |t| ==> t[k].section == TypeSection && t[k].severity == High && t[k].document == name
    requires forall k :: 0 <= k < |c| ==> c[k].section == ContentSection && c[k].severity == Medium && c[k].document == name
    ensures var r := t + c;
      && |r| <= 2
      && ((exists k :: 0 <= k < |r| && r[k].section == TypeSection) <==> |t| == 1)
      && ((exists k :: 0 <= k < |r| && r[k].section == ContentSection) <==> |c| == 1)
      && (forall k :: 0 <= k < |r| ==> r[k].document == name)
      && (forall k :: 0 <= k < |r| ==> (r[k].section == TypeSection <==> r[k].severity == High))
      && (forall k :: 0 <= k < |r| ==> (r[k].section == ContentSection <==> r[k].severity == Medium))
      && (forall k, m :: 0 <= k < |r| && 0 <= m < |r| && r[k].section == TypeSection && r[m].section == ContentSection ==> k < m)
  {
    var r := t + c;
    assert TypeSection != ContentSection by { assert TypeSection[0] != ContentSection[0]; }
    assert forall k :: 0 <= k < |t| ==> r[k] == t[k];
    assert forall k :: 0 <= k < |c| ==> r[|t| + k] == c[k];
    if |t| == 1 { assert r[0].section == TypeSection; }
    if |c| == 1 { assert r[|r| - 1].section == ContentSection; }
  }

  /** The document-type finding, present when the type is not allowed. */
  function TypeIssues(d: DocRecord, checklist: Checklist): (r: seq<Issue>)
    ensures |r| == if TypeOf(d) in AllowedTypes(checklist) then 0 else 1
    ensures forall k :: 0 <= k < |r| ==> r[k].section == TypeSection && r[k].severity == High && r[k].document == FilenameOf(d)
  {
    var docType := TypeOf(d);
    var allowed := AllowedTypes(checklist);
    if docType !in allowed then
      [Issue(FilenameOf(d), TypeSection, "Invalid document type: " + docType, High,
             "Upload a valid document type: " + JoinWith(", ", allowed), "ADGM document requirements")]
    else []
  }

  /** The content-length finding, present when the lowered content is shorter
      than the minimum. */
  function ContentIssues(d: DocRecord, checklist: Checklist): (r: seq<Issue>)
    ensures |r| == if |LoweredContent(d)| < MinimumLength(checklist) then 1 else 0
    ensures forall k :: 0 <= k < |r| ==> r[k].section == ContentSection && r[k].severity == Medium && r[k].document == FilenameOf(d)
  {
    var content := LoweredContent(d);
    var minLength := MinimumLength(checklist);
    if |content| < minLength then
      [Issue(FilenameOf(d), ContentSection, "Document content too short (" + NatToString(|content|) + " characters)", Medium,
             "Ensure document has at least " + IntToString(minLength) + " characters", "ADGM content requirements")]
    else []
  }
}

=== FILE: document_processor.dfy ===
/** Classification of corporate filings by type, detection of heading-like
    lines, and the required-element partition of a processed document. */
module DocumentProcessor {
  import opened Wrappers
  import opened Text
  import opened Seqs
  import Words

  /** The label returned when neither the exact nor the fuzzy pass matches. */
  const UnknownDocumentType: string := "Unknown Document Type"

  /** The fixed label→keyword table, in declaration order. */
  const DocumentTypes: seq<(string, seq<string>)> := [
    ("Memorandum of Association", ["memorandum", "moa", "memorandum of association"]),
    ("Articles of Association", ["articles", "aoa", "articles of association"]),
    ("Register of Members", ["register of members", "members register"]),
    ("Register of Directors", ["register of directors", "directors register"]),
    ("UBO Form", ["ubo", "ultimate beneficial owner", "beneficial owner"]),
    ("Certificate of Incorporation", ["certificate of incorporation", "incorporation certificate"])
  ]

  /** The similarity above which a fuzzy comparison counts as a match. */
  const FuzzyThreshold: int := 80

  /** What `process_document` yields: the extracted record, or the error record
      carrying only the file name when the container could not be read. */
  datatype Document =
    | Processed(filename: string, docType: string, content: string,
                paragraphs: seq<string>, tables: seq<seq<seq<string>>>, wordCount: nat,
                coreProperties: seq<(string, string)>, sections: seq<string>)
    | Failed(error: string, filename: string)

  /** What the word-processor library hands over for one upload. */
  datatype Extraction =
    | Extracted(paragraphs: seq<string>, tables: seq<seq<seq<string>>>, coreProperties: seq<(string, string)>)
    | ExtractionFailed(message: string)

  /** One of the two scans of the table: the exact substring pass over the
      lowered file name and content, or the fuzzy pass whose similarity score
      (a library call) is supplied as `ratio`. */
  datatype Pass =
    | Exact(filenameLower: string, contentLower: string)
    | Fuzzy(contentLower: string, ratio: (string, string) -> int)

  predicate KeywordHits(p: Pass, keyword: string) {
    match p
    case Exact(f, c) => IsSubstring(keyword, f) || IsSubstring(keyword, c)
    case Fuzzy(c, ratio) => ratio(keyword, c) > FuzzyThreshold
  }

  /** Some keyword of the list matches in this pass. */
  predicate LabelHits(keywords: seq<string>, p: Pass) {
    exists k :: 0 <= k < |keywords| && KeywordHits(p, keywords[k])
  }

  /** Entry `i` is the first entry of the table with a matching keyword. */
  predicate IsFirstHit(p: Pass, i: int) {
    && 0 <= i < |DocumentTypes|
    && LabelHits(DocumentTypes[i].1, p)
    && forall j :: 0 <= j < i ==> !LabelHits(DocumentTypes[j].1, p)
  }

  predicate NoHit(p: Pass) {
    forall j :: 0 <= j < |DocumentTypes| ==> !LabelHits(DocumentTypes[j].1, p)
  }

  predicate IsDeclaredLabel(l: string) {
    exists i :: 0 <= i < |DocumentTypes| && DocumentTypes[i].0 == l
  }

  /** The scan of the table from entry `from` on: the index of the first entry
      with a matching keyword, if any. */
  function FirstHit(p: Pass, from: nat): (r: Option<nat>)
    requires from <= |DocumentTypes|
    ensures r.Some? ==> from <= r.value < |DocumentTypes| && LabelHits(DocumentTypes[r.value].1, p)
    ensures r.Some? ==> forall j :: from <= j < r.value ==> !LabelHits(DocumentTypes[j].1, p)
    ensures r.None? ==> forall j :: from <= j < |DocumentTypes| ==> !LabelHits(DocumentTypes[j].1, p)
    decreases |DocumentTypes| - from
  {
    if from == |DocumentTypes| then None
    else if LabelHits(DocumentTypes[from].1, p) then Some(from)
    else FirstHit(p, from + 1)
  }

  /** `_identify_document_type`: the first-declared label with a keyword in the
      lowered file name or content; failing that, the first-declared label with
      a keyword whose fuzzy score against the lowered content exceeds 80;
      failing that, "Unknown Document Type". */
  function IdentifyDocumentType(filename: string, content: string, ratio: (string, string) -> int): (r: string)
    ensures r == UnknownDocumentType || IsDeclaredLabel(r)
    ensures forall i :: IsFirstHit(Exact(Lower(filename), Lower(content)), i) ==> r == DocumentTypes[i].0
    ensures NoHit(Exact(Lower(filename), Lower(content))) ==>
      forall i :: IsFirstHit(Fuzzy(Lower(content), ratio), i) ==> r == DocumentTypes[i].0
    ensures NoHit(Exact(Lower(filename), Lower(content))) && NoHit(Fuzzy(Lower(content), ratio)) ==>
      r == UnknownDocumentType
  {
    var exact := Exact(Lower(filename), Lower(content));
    match FirstHit(exact, 0)
    case Some(i) => DocumentTypes[i].0
    case None =>
      match FirstHit(Fuzzy(Lower(content), ratio), 0)
      case Some(i) => DocumentTypes[i].0
      case None => UnknownDocumentType
  }

  /** No declared label is spelled like the fallback label. */
  lemma LabelsAreNotUnknown()
    ensures !IsDeclaredLabel(UnknownDocumentType)
  {
    forall i | 0 <= i < |DocumentTypes| ensures DocumentTypes[i].0 != UnknownDocumentType {
      assert DocumentTypes[i].0[1] != UnknownDocumentType[1];
    }
  }

  /** A keyword of entry `i` occurring in the lowered file name or content
      decides the result in the exact pass: it is the label of an entry no
      later than `i` that has a matching keyword, and no earlier entry has one. */
  lemma {:induction false} KeywordOccurrenceDecides(filename: string, content: string,
                                                   ratio: (string, string) -> int, i: nat, k: nat)
    requires i < |DocumentTypes| && k < |DocumentTypes[i].1|
    requires IsSubstring(DocumentTypes[i].1[k], Lower(filename)) || IsSubstring(DocumentTypes[i].1[k], Lower(content))
    ensures exists j :: 0 <= j <= i && IsFirstHit(Exact(Lower(filename), Lower(content)), j)
                        && IdentifyDocumentType(filename, content, ratio) == DocumentTypes[j].0
  {
    var exact := Exact(Lower(filename), Lower(content));
    assert KeywordHits(exact, DocumentTypes[i].1[k]);
    assert LabelHits(DocumentTypes[i].1, exact);
    var first := FirstHit(exact, 0);
    assert first.Some?;
    assert IsFirstHit(exact, first.value);
  }

  /** Every declared keyword is non-empty. */
  lemma KeywordsNonEmpty()
    ensures forall i, k :: 0 <= i < |DocumentTypes| && 0 <= k < |DocumentTypes[i].1| ==> |DocumentTypes[i].1[k]| > 0
  {
  }

  /** With an empty file name and empty content the exact pass never matches,
      so the fuzzy pass alone decides; when no keyword scores above 80 against
      the empty text the result is "Unknown Document Type". */
  lemma EmptyDocumentIsFuzzyOnly(ratio: (string, string) -> int)
    ensures NoHit(Exact("", ""))
    ensures forall i :: IsFirstHit(Fuzzy("", ratio), i) ==> IdentifyDocumentType("", "", ratio) == DocumentTypes[i].0
    ensures (forall i, k :: 0 <= i < |DocumentTypes| && 0 <= k < |DocumentTypes[i].1| ==> ratio(DocumentTypes[i].1[k], "") <= FuzzyThreshold)
            ==> IdentifyDocumentType("", "", ratio) == UnknownDocumentType
  {
    KeywordsNonEmpty();
    assert Lower("") == "";
    forall j | 0 <= j < |DocumentTypes| ensures !LabelHits(DocumentTypes[j].1, Exact("", "")) {
      forall k | 0 <= k < |DocumentTypes[j].1| ensures !KeywordHits(Exact("", ""), DocumentTypes[j].1[k]) {
        NonEmptyNotInEmpty(DocumentTypes[j].1[k]);
      }
    }
  }

  /** The heading test of `_identify_sections`, applied to a stripped line. */
  predicate IsHeading(line: string) {
    line != [] && (IsUpper(line) || EndsWith(line, ":") || StartsNumbered(line))
  }

  /** Every line stripped, in order. */
  function StrippedLines(lines: seq<string>): (r: seq<string>)
    ensures |r| == |lines|
    ensures forall i :: 0 <= i < |lines| ==> r[i] == Strip(lines[i])
  {
    if lines == [] then [] else [Strip(lines[0])] + StrippedLines(lines[1..])
  }

  /** The lines that pass the heading test, in order. */
  function HeadingLines(xs: seq<string>): (r: seq<string>)
    ensures |r| <= |xs|
    ensures forall i :: 0 <= i < |r| ==> IsHeading(r[i])
    ensures KeepsHeadings(r, xs)
  {
    if xs == [] then []
    else
      var rest := HeadingLines(xs[1..]);
      var r := if IsHeading(xs[0]) then [xs[0]] + rest else rest;
      KeepsHeadingsStep(rest, xs[1..], xs[0], r);
      assert xs == [xs[0]] + xs[1..];
      r
  }

  /** All stripped lines that pass the heading test, in order. */
  function Headings(lines: seq<string>): (r: seq<string>)
    ensures |r| <= |lines|
    ensures forall i :: 0 <= i < |r| ==> IsHeading(r[i]) && Strip(r[i]) == r[i]
    ensures KeepsHeadings(r, StrippedLines(lines))
  {
    var r := HeadingLines(StrippedLines(lines));
    KeptAreStripped(lines, r);
    r
  }

  /** What is kept from the stripped lines is itself stripped. */
  lemma KeptAreStripped(lines: seq<string>, r: seq<string>)
    requires KeepsHeadings(r, StrippedLines(lines))
    ensures forall i :: 0 <= i < |r| ==> Strip(r[i]) == r[i]
  {
    var all := StrippedLines(lines);
    forall i | 0 <= i < |r| ensures Strip(r[i]) == r[i] {
      assert r[i] in multiset(r);
      assert r[i] in multiset(all);
      var j :| 0 <= j < |all| && all[j] == r[i];
      StripIdempotent(lines[j]);
    }
  }

  /** `r` is `all` with the non-headings removed: the order is kept, and each
      heading occurs as often as in `all`. */
  ghost predicate KeepsHeadings(r: seq<string>, all: seq<string>) {
    && IsSubsequence(r, all)
    && forall h :: multiset(r)[h] == if IsHeading(h) then multiset(all)[h] else 0
  }

  /** Keeping or dropping the first line by the heading test extends the
      filter of the remaining lines. */
  lemma KeepsHeadingsStep(rest: seq<string>, tail: seq<string>, line: string, r: seq<string>)
    requires KeepsHeadings(rest, tail)
    requires r == if IsHeading(line) then [line] + rest else rest
    ensures KeepsHeadings(r, [line] + tail)
  {
    SubsequencePrepend(rest, tail, line);
  }

  /** Some line strips to `h`. */
  predicate StripsTo(lines: seq<string>, h: string) {
    exists i :: 0 <= i < |lines| && Strip(lines[i]) == h
  }

  /** A string is among the headings exactly when some line strips to it and
      it passes the heading test. */
  lemma HeadingsMembership(lines: seq<string>, h: string)
    ensures h in Headings(lines) <==> IsHeading(h) && StripsTo(lines, h)
  {
    var all := StrippedLines(lines);
    var r := Headings(lines);
    assert h in r <==> h in multiset(r);
    assert h in all <==> h in multiset(all);
    if h in all {
      var i :| 0 <= i < |all| && all[i] == h;
    }
  }

  /** At most this many sections are reported. */
  const MaxSections: nat := 10

  /** `_identify_sections`: the first ten heading lines of the content. */
  function IdentifySections(content: string): (r: seq<string>)
    ensures |r| <= MaxSections
    ensures forall i :: 0 <= i < |r| ==> IsHeading(r[i]) && Strip(r[i]) == r[i]
    ensures var all := Headings(SplitLines(content));
      |r| <= |all| && r == all[..|r|] && |r| == if |all| < MaxSections then |all| else MaxSections
  {
    var all := Headings(SplitLines(content));
    PyPrefix(all, MaxSections)
  }

  /** `process_document` given what the library extracted: the full text is the
      paragraphs joined by line feeds; a failed extraction gives the error record. */
  function ProcessDocument(filename: string, extraction: Extraction, ratio: (string, string) -> int): (d: Document)
    ensures d.filename == filename
    ensures d.Failed? <==> extraction.ExtractionFailed?
    ensures d.Processed? ==> (
      && d.content == JoinWith("\n", extraction.paragraphs)
      && d.docType == IdentifyDocumentType(filename, d.content, ratio)
      && d.sections == IdentifySections(d.content)
      && d.wordCount == Words.WordCount(d.content)
      && IsSubsequence(d.paragraphs, extraction.paragraphs)
      && (forall i :: 0 <= i < |d.paragraphs| ==> Strip(d.paragraphs[i]) != [])
      && (forall x :: multiset(d.paragraphs)[x] == if Strip(x) != [] then multiset(extraction.paragraphs)[x] else 0))
  {
    match extraction
    case ExtractionFailed(message) => Failed(message, filename)
    case Extracted(paragraphs, tables, properties) =>
      var text := JoinWith("\n", paragraphs);
      Processed(filename, IdentifyDocumentType(filename, text, ratio), text,
                NonBlank(paragraphs), tables, Words.WordCount(text), properties, IdentifySections(text))
  }

  /** The paragraphs whose text is not blank, in order. */
  function NonBlank(paragraphs: seq<string>): (r: seq<string>)
    ensures IsSubsequence(r, paragraphs)
    ensures forall i :: 0 <= i < |r| ==> Strip(r[i]) != []
    ensures KeepsNonBlank(r, paragraphs)
  {
    if paragraphs == [] then []
    else
      var rest := NonBlank(paragraphs[1..]);
      var r := if Strip(paragraphs[0]) != [] then [paragraphs[0]] + rest else rest;
      NonBlankStep(rest, paragraphs[1..], paragraphs[0], r);
      assert paragraphs == [paragraphs[0]] + paragraphs[1..];
      r
  }

  /** `r` keeps every non-blank paragraph of `all` as often as it occurs
      there, and nothing else. */
  ghost predicate KeepsNonBlank(r: seq<string>, all: seq<string>) {
    forall x :: multiset(r)[x] == if Strip(x) != [] then multiset(all)[x] else 0
  }

  lemma NonBlankStep(rest: seq<string>, tail: seq<string>, p: string, r: seq<string>)
    requires IsSubsequence(rest, tail) && KeepsNonBlank(rest, tail)
    requires r == if Strip(p) != [] then [p] + rest else rest
    ensures IsSubsequence(r, [p] + tail) && KeepsNonBlank(r, [p] + tail)
  {
    SubsequencePrepend(rest, tail, p);
  }

  /** Every non-blank paragraph is kept. */
  lemma NonBlankKeepsEvery(paragraphs: seq<string>, i: nat)
    requires i < |paragraphs| && Strip(paragraphs[i]) != []
    ensures paragraphs[i] in NonBlank(paragraphs)
  {
    var x := paragraphs[i];
    assert x in multiset(paragraphs);
    assert x in multiset(NonBlank(paragraphs));
  }

  /** The required elements split by whether they occur in the document. */
  datatype Completeness = Completeness(missingElements: seq<string>, presentElements: seq<string>)

  /** Why `validate_document_completeness` raises: the record has no content
      (the error record), or the required list is empty (the score divides by
      its length). */
  datatype CompletenessError = NoContent | NoRequiredElements

  /** The facts a partition of `elements` keeps, over lowered content `text`. */
  predicate IsPartition(c: Completeness, elements: seq<string>, text: string) {
    && multiset(c.presentElements) + multiset(c.missingElements) == multiset(elements)
    && IsSubsequence(c.presentElements, elements)
    && IsSubsequence(c.missingElements, elements)
    && (forall i :: 0 <= i < |c.presentElements| ==> IsSubstring(Lower(c.presentElements[i]), text))
    && (forall i :: 0 <= i < |c.missingElements| ==> !IsSubstring(Lower(c.missingElements[i]), text))
  }

  /** The loop of `validate_document_completeness` over lowered content `text`:
      each element goes to `present` when its lowered form occurs, else to
      `missing`, in input order. */
  function Partition(elements: seq<string>, text: string): (r: Completeness)
    ensures IsPartition(r, elements, text)
  {
    if elements == [] then Completeness([], [])
    else
      var e, tail := elements[0], elements[1..];
      var rest := Partition(tail, text);
      var r := if IsSubstring(Lower(e), text)
        then Completeness(rest.missingElements, [e] + rest.presentElements)
        else Completeness([e] + rest.missingElements, rest.presentElements);
      PartitionStep(rest, e, tail, text, r);
      assert [e] + tail == elements;
      r
  }

  /** Placing the head element on the side its occurrence selects extends a
      partition of the tail to one of the whole list. */
  lemma PartitionStep(rest: Completeness, e: string, tail: seq<string>, text: string, r: Completeness)
    requires IsPartition(rest, tail, text)
    requires r == if IsSubstring(Lower(e), text)
      then Completeness(rest.missingElements, [e] + rest.presentElements)
      else Completeness([e] + rest.missingElements, rest.presentElements)
    ensures IsPartition(r, [e] + tail, text)
  {
    var p, m := rest.presentElements, rest.missingElements;
    SubsequencePrepend(p, tail, e);
    SubsequencePrepend(m, tail, e);
    if IsSubstring(Lower(e), text) {
      assert multiset([e] + p) + multiset(m) == multiset([e] + tail);
      PrependKeeps(p, e, true, text);
    } else {
      assert multiset(p) + multiset([e] + m) == multiset([e] + tail);
      PrependKeeps(m, e, false, text);
    }
  }

  /** Putting an element in front keeps "every element occurs" (or "none
      occurs") when the element itself does (or does not). */
  lemma PrependKeeps(xs: seq<string>, e: string, occurs: bool, text: string)
    requires forall i :: 0 <= i < |xs| ==> IsSubstring(Lower(xs[i]), text) == occurs
    requires IsSubstring(Lower(e), text) == occurs
    ensures forall i :: 0 <= i < |[e] + xs| ==> IsSubstring(Lower(([e] + xs)[i]), text) == occurs
  {
    forall i | 0 <= i < |[e] + xs| ensures IsSubstring(Lower(([e] + xs)[i]), text) == occurs {
      if i > 0 {
        assert ([e] + xs)[i] == xs[i - 1];
      }
    }
  }

  /** `validate_document_completeness` without the floating-point score: the
      present/missing split over the lowered content. */
  function ValidateDocumentCompleteness(doc: Document, required: seq<string>): (r: Result<Completeness, CompletenessError>)
    ensures doc.Failed? ==> r == Err(NoContent)
    ensures doc.Processed? && required == [] ==> r == Err(NoRequiredElements)
    ensures doc.Processed? && required != [] ==> r.Ok?
    ensures r.Ok? ==> IsPartition(r.value, required, Lower(doc.content))
    ensures r.Ok? ==> |r.value.presentElements| + |r.value.missingElements| == |required|
    ensures r.Ok? ==> forall e :: e in required ==>
      (e in r.value.presentElements <==> IsSubstring(Lower(e), Lower(doc.content)))
    ensures r.Ok? ==> forall e :: e in required ==>
      (e in r.value.missingElements <==> !IsSubstring(Lower(e), Lower(doc.content)))
  {
    match doc
    case Failed(_, _) => Err(NoContent)
    case Processed(_, _, content, _, _, _, _, _) =>
      if required == [] then Err(NoRequiredElements)
      else
        var c := Partition(required, Lower(content));
        assert required == [required[0]] + required[1..];
        MultisetSizes(c, required);
        PartitionMembership(c, required, Lower(content));
        Ok(c)
  }

  lemma MultisetSizes(c: Completeness, elements: seq<string>)
    requires multiset(c.presentElements) + multiset(c.missingElements) == multiset(elements)
    ensures |c.presentElements| + |c.missingElements| == |elements|
  {
    assert |multiset(c.presentElements) + multiset(c.missingElements)| == |multiset(elements)|;
  }

  /** In a partition, an element of the input is present exactly when it occurs. */
  lemma PartitionMembership(c: Completeness, elements: seq<string>, text: string)
    requires multiset(c.presentElements) + multiset(c.missingElements) == multiset(elements)
    requires forall i :: 0 <= i < |c.presentElements| ==> IsSubstring(Lower(c.presentElements[i]), text)
    requires forall i :: 0 <= i < |c.missingElements| ==> !IsSubstring(Lower(c.missingElements[i]), text)
    ensures forall e :: e in elements ==> (e in c.presentElements <==> IsSubstring(Lower(e), text))
    ensures forall e :: e in elements ==> (e in c.missingElements <==> !IsSubstring(Lower(e), text))
  {
    forall e | e in elements
      ensures e in c.presentElements <==> IsSubstring(Lower(e), text)
      ensures e in c.missingElements <==> !IsSubstring(Lower(e), text)
    {
      assert e in multiset(elements);
      if e in c.presentElements {
        var i :| 0 <= i < |c.presentElements| && c.presentElements[i] == e;
      }
      if e in c.missingElements {
        var i :| 0 <= i < |c.missingElements| && c.missingElements[i] == e;
      }
    }
  }
}

=== FILE: rag_engine.dfy ===
/** The keyword-overlap knowledge store: loading, appending, ranking snippets
    against a query, and assembling a word-budgeted context. */
module RagEngine {
  import opened Wrappers
  import opened Text
  import opened Seqs
  import opened Words

  /** A parsed JSON value; objects keep their key order. */
  datatype Json =
    | JNull
    | JBool(b: bool)
    | JNumber(n: real)
    | JString(s: string)
    | JArray(items: seq<Json>)
    | JObject(fields: seq<(string, Json)>)

  /** The value stored under `key` (keys of a parsed object are distinct). */
  function Lookup(fields: seq<(string, Json)>, key: string): (r: Option<Json>)
    ensures r.Some? ==> exists i :: 0 <= i < |fields| && fields[i] == (key, r.value)
    ensures r.None? ==> forall i :: 0 <= i < |fields| ==> fields[i].0 != key
  {
    if fields == [] then None
    else if fields[0].0 == key then Some(fields[0].1)
    else Lookup(fields[1..], key)
  }

  /** The store held by the engine, and the file it was loaded from. */
  datatype Engine = Engine(filename: Option<string>, documents: seq<Json>)

  /** One ranked snippet: its content, its metadata, and its relevance. */
  datatype Hit = Hit(content: string, metadata: Json, score: real)

  /** `query` calls `.get` on every stored entry and so raises on the first
      one that is not an object. */
  datatype QueryError = EntryNotRecord(index: nat)

  /** The number of results `get_relevant_context` asks for. */
  const ContextResults: int := 3

  /** The default word budget of `get_relevant_context`. */
  const DefaultMaxTokens: int := 1000

  predicate AllRecords(store: seq<Json>) {
    forall i :: 0 <= i < |store| ==> store[i].JObject?
  }

  /** The index of the first entry that is not an object. */
  function FirstNonRecord(store: seq<Json>): (i: nat)
    requires !AllRecords(store)
    ensures i < |store| && !store[i].JObject?
    ensures forall j :: 0 <= j < i ==> store[j].JObject?
  {
    if !store[0].JObject? then 0
    else
      assert !AllRecords(store[1..]) by {
        var k :| 0 <= k < |store| && !store[k].JObject?;
        assert store[1..][k - 1] == store[k];
      }
      1 + FirstNonRecord(store[1..])
  }

  /** The query words: the lowered query split on whitespace. */
  function QueryWords(query: string): seq<string> {
    Split(Lower(query))
  }

  /** How many query words, duplicates counted, occur in `text`. */
  function MatchCount(queryWords: seq<string>, text: string): (n: nat)
    ensures n <= |queryWords|
  {
    if queryWords == [] then 0
    else (if IsSubstring(queryWords[0], text) then 1 else 0) + MatchCount(queryWords[1..], text)
  }

  /** The match count of two runs of query words is the sum of theirs. */
  lemma {:induction false} MatchCountAppend(a: seq<string>, b: seq<string>, text: string)
    ensures MatchCount(a + b, text) == MatchCount(a, text) + MatchCount(b, text)
  {
    if a != [] {
      assert (a + b)[0] == a[0] && (a + b)[1..] == a[1..] + b;
      MatchCountAppend(a[1..], b, text);
    } else {
      assert a + b == b;
    }
  }

  /** The positions of the query words that occur in `text`. */
  function Occurring(queryWords: seq<string>, text: string): set<nat> {
    set i: nat | i < |queryWords| && IsSubstring(queryWords[i], text)
  }

  /** The match count is the number of positions whose query word occurs in
      the text, so duplicated words are counted once per position. */
  lemma {:induction false} MatchCountIsOccurrences(queryWords: seq<string>, text: string)
    ensures MatchCount(queryWords, text) == |Occurring(queryWords, text)|
    decreases |queryWords|
  {
    if queryWords != [] {
      var n := |queryWords| - 1;
      var init, last := queryWords[..n], queryWords[n];
      assert queryWords == init + [last];
      MatchCountAppend(init, [last], text);
      MatchCountIsOccurrences(init, text);
      assert MatchCount([last], text) == if IsSubstring(last, text) then 1 else 0 by {
        assert [last][1..] == [];
      }
      OccurringSnoc(init, last, text);
    }
  }

  /** One more query word adds its position when it occurs in the text. */
  lemma OccurringSnoc(init: seq<string>, last: string, text: string)
    ensures |Occurring(init + [last], text)|
         == |Occurring(init, text)| + if IsSubstring(last, text) then 1 else 0
  {
    var n := |init|;
    var lower := Occurring(init, text);
    var whole := Occurring(init + [last], text);
    assert whole == lower + (if IsSubstring(last, text) then {n} else {}) by {
      forall i: nat | i < n ensures (init + [last])[i] == init[i] { }
    }
    assert n !in lower;
  }

  /** A positive match count means some query word occurs in the text. */
  lemma {:induction false} MatchCountPositive(queryWords: seq<string>, text: string)
    ensures MatchCount(queryWords, text) > 0 <==> exists i :: 0 <= i < |queryWords| && IsSubstring(queryWords[i], text)
  {
    if queryWords != [] {
      MatchCountPositive(queryWords[1..], text);
      if exists i :: 0 <= i < |queryWords| && IsSubstring(queryWords[i], text) {
        var i :| 0 <= i < |queryWords| && IsSubstring(queryWords[i], text);
        if i > 0 {
          assert queryWords[1..][i - 1] == queryWords[i];
        }
      }
      if exists i :: 0 <= i < |queryWords[1..]| && IsSubstring(queryWords[1..][i], text) {
        var i :| 0 <= i < |queryWords[1..]| && IsSubstring(queryWords[1..][i], text);
        assert queryWords[i + 1] == queryWords[1..][i];
      }
    }
  }

  /** The `content` of an entry, `""` when absent. */
  function ContentOf(fields: seq<(string, Json)>): Json {
    Lookup(fields, "content").GetOr(JString(""))
  }

  /** The scoring of one stored entry: an object whose content is a string in
      which at least one query word occurs yields a hit scored by the share of
      query words that occur; every other entry yields nothing. */
  function HitOf(entry: Json, queryWords: seq<string>): (r: Option<Hit>)
    ensures r.Some? ==> 0.0 < r.value.score <= 1.0
    ensures r.Some? <==> entry.JObject? && ContentOf(entry.fields).JString?
                         && MatchCount(queryWords, Lower(ContentOf(entry.fields).s)) > 0
    ensures r.Some? ==> ContentOf(entry.fields) == JString(r.value.content)
    ensures r.Some? ==> r.value.score == MatchCount(queryWords, Lower(r.value.content)) as real / |queryWords| as real
    ensures r.Some? ==> r.value.metadata == Lookup(entry.fields, "metadata").GetOr(JObject([]))
  {
    match entry
    case JObject(fields) =>
      (match ContentOf(fields)
       case JString(text) =>
         var n := MatchCount(queryWords, Lower(text));
         if n > 0 then
           var score := n as real / |queryWords| as real;
           assert score <= 1.0 by {
             assert n as real <= |queryWords| as real;
           }
           Some(Hit(text, Lookup(fields, "metadata").GetOr(JObject([])), score))
         else None
       case _ => None)
    case _ => None
  }

  /** The hits of the store, in store order. */
  function Candidates(store: seq<Json>, queryWords: seq<string>): (r: seq<Hit>)
    ensures |r| <= |store|
    ensures forall i :: 0 <= i < |r| ==> 0.0 < r[i].score <= 1.0
  {
    if store == [] then []
    else HeadHits(store, queryWords) + Candidates(store[1..], queryWords)
  }

  /** The hit of the first entry, if it yields one. */
  function HeadHits(store: seq<Json>, queryWords: seq<string>): (r: seq<Hit>)
    requires store != []
    ensures |r| <= 1
    ensures forall i :: 0 <= i < |r| ==> 0.0 < r[i].score <= 1.0
  {
    match HitOf(store[0], queryWords) case Some(h) => [h] case None => []
  }

  /** The hits of two stores one after the other are the hits of each, in order. */
  lemma {:induction false} CandidatesAppend(a: seq<Json>, b: seq<Json>, queryWords: seq<string>)
    ensures Candidates(a + b, queryWords) == Candidates(a, queryWords) + Candidates(b, queryWords)
  {
    if a == [] {
      assert a + b == b;
    } else {
      var hd := HeadHits(a, queryWords);
      assert (a + b)[1..] == a[1..] + b;
      assert Candidates(a + b, queryWords) == hd + Candidates(a[1..] + b, queryWords);
      CandidatesAppend(a[1..], b, queryWords);
      ConcatAssoc(hd, Candidates(a[1..], queryWords), Candidates(b, queryWords));
    }
  }

  /** Some entry of the store yields hit `h`. */
  predicate YieldsHit(store: seq<Json>, queryWords: seq<string>, h: Hit) {
    exists j :: 0 <= j < |store| && HitOf(store[j], queryWords) == Some(h)
  }

  /** A hit is a candidate exactly when some stored entry yields it. */
  lemma {:induction false} CandidateMembership(store: seq<Json>, queryWords: seq<string>, h: Hit)
    ensures h in Candidates(store, queryWords) <==> YieldsHit(store, queryWords, h)
  {
    if store != [] {
      var tail := store[1..];
      CandidateMembership(tail, queryWords, h);
      if YieldsHit(store, queryWords, h) {
        var j :| 0 <= j < |store| && HitOf(store[j], queryWords) == Some(h);
        if j > 0 {
          assert tail[j - 1] == store[j];
        }
      }
      if YieldsHit(tail, queryWords, h) {
        var j :| 0 <= j < |tail| && HitOf(tail[j], queryWords) == Some(h);
        assert store[j + 1] == tail[j];
      }
    }
  }

  /** Scores never increase along the sequence. */
  predicate SortedByScore(s: seq<Hit>) {
    forall i, j :: 0 <= i < j < |s| ==> s[i].score >= s[j].score
  }

  /** The hits with score `v`, in order. */
  function WithScore(s: seq<Hit>, v: real): (r: seq<Hit>)
    ensures |r| <= |s|
  {
    if s == [] then []
    else HeadWithScore(s, v) + WithScore(s[1..], v)
  }

  /** The hits of score `v` in the head position, if any. */
  function HeadWithScore(s: seq<Hit>, v: real): seq<Hit>
    requires s != []
  {
    if s[0].score == v then [s[0]] else []
  }

  lemma {:induction false} WithScoreAppend(a: seq<Hit>, b: seq<Hit>, v: real)
    ensures WithScore(a + b, v) == WithScore(a, v) + WithScore(b, v)
  {
    if a == [] {
      assert a + b == b;
    } else {
      var hd := HeadWithScore(a, v);
      assert (a + b)[1..] == a[1..] + b;
      assert WithScore(a + b, v) == hd + WithScore(a[1..] + b, v);
      WithScoreAppend(a[1..], b, v);
      ConcatAssoc(hd, WithScore(a[1..], v), WithScore(b, v));
    }
  }

  /** Inserts `x` before the first hit whose score is not above its own. */
  function InsertByScore(x: Hit, t: seq<Hit>): (r: seq<Hit>)
    requires SortedByScore(t)
    ensures SortedByScore(r)
    ensures multiset(r) == multiset(t) + multiset{x}
  {
    if t == [] || t[0].score <= x.score then [x] + t
    else
      var rest := InsertByScore(x, t[1..]);
      InsertBehindHead(x, t, rest);
      [t[0]] + rest
  }

  /** When `x` goes behind the head of `t`, the head still leads. */
  lemma InsertBehindHead(x: Hit, t: seq<Hit>, rest: seq<Hit>)
    requires t != [] && t[0].score > x.score && SortedByScore(t)
    requires SortedByScore(rest) && multiset(rest) == multiset(t[1..]) + multiset{x}
    ensures SortedByScore([t[0]] + rest)
    ensures multiset([t[0]] + rest) == multiset(t) + multiset{x}
  {
    forall k | 0 <= k < |rest| ensures t[0].score >= rest[k].score {
      assert rest[k] in multiset(rest);
      if rest[k] != x {
        assert rest[k] in multiset(t[1..]);
        var j :| 0 <= j < |t[1..]| && t[1..][j] == rest[k];
        assert t[j + 1] == rest[k];
      }
    }
    var r := [t[0]] + rest;
    forall i, j | 0 <= i < j < |r| ensures r[i].score >= r[j].score {
      if i > 0 {
        assert r[i] == rest[i - 1] && r[j] == rest[j - 1];
      } else {
        assert r[j] == rest[j - 1];
      }
    }
    assert t == [t[0]] + t[1..];
  }

  /** Insertion keeps `x` ahead of the hits of equal score that follow it. */
  lemma {:induction false} InsertByScoreStable(x: Hit, t: seq<Hit>, v: real)
    requires SortedByScore(t)
    ensures WithScore(InsertByScore(x, t), v) == WithScore([x] + t, v)
  {
    if !(t == [] || t[0].score <= x.score) {
      var hd, tl := [t[0]], t[1..];
      var rest := InsertByScore(x, tl);
      assert t == hd + tl;
      assert x.score != t[0].score;
      assert WithScore([x], v) + WithScore(hd, v) == WithScore(hd, v) + WithScore([x], v);
      calc {
        WithScore(InsertByScore(x, t), v);
        WithScore(hd + rest, v);
        { WithScoreAppend(hd, rest, v); }
        WithScore(hd, v) + WithScore(rest, v);
        { InsertByScoreStable(x, tl, v); }
        WithScore(hd, v) + WithScore([x] + tl, v);
        { WithScoreAppend([x], tl, v); }
        WithScore(hd, v) + (WithScore([x], v) + WithScore(tl, v));
        { ConcatAssoc(WithScore(hd, v), WithScore([x], v), WithScore(tl, v));
          ConcatAssoc(WithScore([x], v), WithScore(hd, v), WithScore(tl, v)); }
        WithScore([x], v) + (WithScore(hd, v) + WithScore(tl, v));
        { WithScoreAppend(hd, tl, v); }
        WithScore([x], v) + WithScore(t, v);
        { WithScoreAppend([x], t, v); }
        WithScore([x] + t, v);
      }
    }
  }

  /** A stable sort by descending score (Python's `sort(key=score, reverse=True)`). */
  function SortByScore(s: seq<Hit>): (r: seq<Hit>)
    ensures SortedByScore(r)
    ensures multiset(r) == multiset(s)
  {
    if s == [] then []
    else
      assert s == [s[0]] + s[1..];
      InsertByScore(s[0], SortByScore(s[1..]))
  }

  /** Hits of equal score keep their relative order through the sort. */
  lemma {:induction false} SortByScoreStable(s: seq<Hit>, v: real)
    ensures WithScore(SortByScore(s), v) == WithScore(s, v)
  {
    if s != [] {
      var hd, tl := [s[0]], s[1..];
      var t := SortByScore(tl);
      assert s == hd + tl;
      calc {
        WithScore(SortByScore(s), v);
        WithScore(InsertByScore(s[0], t), v);
        { InsertByScoreStable(s[0], t, v); }
        WithScore(hd + t, v);
        { WithScoreAppend(hd, t, v); }
        WithScore(hd, v) + WithScore(t, v);
        { SortByScoreStable(tl, v); }
        WithScore(hd, v) + WithScore(tl, v);
        { WithScoreAppend(hd, tl, v); }
        WithScore(s, v);
      }
    }
  }

  /** Reordering keeps every score in (0, 1]. */
  lemma RankedScoresInRange(cands: seq<Hit>, ranked: seq<Hit>)
    requires forall i :: 0 <= i < |cands| ==> 0.0 < cands[i].score <= 1.0
    requires multiset(ranked) == multiset(cands)
    ensures forall i :: 0 <= i < |ranked| ==> 0.0 < ranked[i].score <= 1.0
  {
    forall i | 0 <= i < |ranked| ensures 0.0 < ranked[i].score <= 1.0 {
      assert ranked[i] in multiset(cands);
      var j :| 0 <= j < |cands| && cands[j] == ranked[i];
    }
  }

  /** `query`: the hits of the store ranked by descending score, ties in store
      order, cut to `nResults` as Python's `results[:n_results]` cuts. */
  function Query(store: seq<Json>, query: string, nResults: int): (r: Result<seq<Hit>, QueryError>)
    ensures r.Ok? <==> AllRecords(store)
    ensures r.Err? ==> r.error == EntryNotRecord(FirstNonRecord(store))
    ensures r.Ok? ==> SortedByScore(r.value)
    ensures r.Ok? ==> forall i :: 0 <= i < |r.value| ==> 0.0 < r.value[i].score <= 1.0
    ensures r.Ok? && nResults >= 0 ==> |r.value| <= nResults
    ensures r.Ok? ==> var ranked := SortByScore(Candidates(store, QueryWords(query)));
      |r.value| <= |ranked| && r.value == ranked[..|r.value|]
      && |r.value| == if nResults >= 0 then (if nResults < |ranked| then nResults else |ranked|)
                      else (if |ranked| + nResults > 0 then |ranked| + nResults else 0)
  {
    if !AllRecords(store) then Err(EntryNotRecord(FirstNonRecord(store)))
    else
      var cands := Candidates(store, QueryWords(query));
      var ranked := SortByScore(cands);
      RankedScoresInRange(cands, ranked);
      Ok(PyPrefix(ranked, nResults))
  }

  /** The hits of score `v` in a prefix lead the hits of score `v` in the whole. */
  lemma WithScorePrefix(s: seq<Hit>, k: nat, v: real)
    requires k <= |s|
    ensures var p := WithScore(s[..k], v);
      |p| <= |WithScore(s, v)| && p == WithScore(s, v)[..|p|]
  {
    assert s == s[..k] + s[k..];
    WithScoreAppend(s[..k], s[k..], v);
  }

  /** Among the returned hits, those of one score are a prefix of the store's
      hits of that score in store order. */
  lemma QueryTiesInStoreOrder(store: seq<Json>, query: string, nResults: int, v: real)
    requires AllRecords(store)
    ensures var hits := Query(store, query, nResults).value;
      var same := WithScore(Candidates(store, QueryWords(query)), v);
      |WithScore(hits, v)| <= |same| && WithScore(hits, v) == same[..|WithScore(hits, v)|]
  {
    var cands := Candidates(store, QueryWords(query));
    var ranked := SortByScore(cands);
    var hits := Query(store, query, nResults).value;
    assert hits == ranked[..|hits|];
    SortByScoreStable(cands, v);
    WithScorePrefix(ranked, |hits|, v);
  }

  /** With room for every entry, a hit is returned exactly when some stored
      entry yields it, as often as the store yields it. */
  lemma QueryMembership(store: seq<Json>, query: string, nResults: int, h: Hit)
    requires AllRecords(store) && nResults >= |store|
    ensures var hits := Query(store, query, nResults).value;
      && multiset(hits) == multiset(Candidates(store, QueryWords(query)))
      && (h in hits <==> YieldsHit(store, QueryWords(query), h))
  {
    var cands := Candidates(store, QueryWords(query));
    var ranked := SortByScore(cands);
    var hits := Query(store, query, nResults).value;
    assert hits == ranked;
    assert h in hits <==> h in multiset(cands);
    CandidateMembership(store, QueryWords(query), h);
  }

  /** The contents of `hits`, in order. */
  function Contents(hits: seq<Hit>): (r: seq<string>)
    ensures |r| == |hits|
    ensures forall i :: 0 <= i < |hits| ==> r[i] == hits[i].content
  {
    if hits == [] then [] else [hits[0].content] + Contents(hits[1..])
  }

  /** The words spent once the first `j` snippets are taken whole, on top of
      `used`. */
  function Spent(results: seq<Hit>, used: nat, j: nat): nat
    requires j <= |results|
  {
    used + TotalWords(Contents(results[..j]))
  }

  /** `' '.join(words[:n])`: the leading `n` words of `content`. */
  function CutTo(content: string, n: nat): (r: string)
    requires n <= WordCount(content)
    ensures Split(r) == Split(content)[..n]
    ensures WordCount(r) == n
  {
    SplitYieldsWords(content);
    SplitJoinWords(Split(content)[..n]);
    JoinWith(Space, Split(content)[..n])
  }

  /** `parts` is the context taken from `results` with `used` words already
      spent, `k` being the rank of the first snippet that overflows the budget
      (`|results|` when none does): the `k` snippets before it whole, then
      that snippet cut to the words the budget still allows, when it allows
      any. */
  predicate IsContextAt(results: seq<Hit>, maxTokens: int, used: nat, k: nat, parts: seq<string>) {
    && k <= |results|
    && FitBefore(results, maxTokens, used, k)
    && OverflowsAt(results, maxTokens, used, k)
    && parts == Contents(results[..k]) + CutPart(results, maxTokens, used, k)
  }

  /** Each of the first `k` snippets fits in the budget after those before it. */
  predicate FitBefore(results: seq<Hit>, maxTokens: int, used: nat, k: nat)
    requires k <= |results|
  {
    forall j :: 0 <= j < k ==> Spent(results, used, j) + WordCount(results[j].content) <= maxTokens
  }

  /** The snippet of rank `k`, if there is one, does not fit. */
  predicate OverflowsAt(results: seq<Hit>, maxTokens: int, used: nat, k: nat)
    requires k <= |results|
  {
    k < |results| ==> Spent(results, used, k) + WordCount(results[k].content) > maxTokens
  }

  /** The cut snippet closing the context, if any. */
  function CutPart(results: seq<Hit>, maxTokens: int, used: nat, k: nat): seq<string>
    requires k <= |results| && OverflowsAt(results, maxTokens, used, k)
  {
    if k < |results| && Spent(results, used, k) < maxTokens then
      [CutTo(results[k].content, maxTokens - Spent(results, used, k))]
    else []
  }

  /** The loop of `get_relevant_context`: whole snippets while they fit in the
      budget; the first that does not fit is cut to the leading words that
      still fit (when any do), and nothing follows it. */
  function ContextParts(results: seq<Hit>, maxTokens: int, used: nat): (parts: seq<string>)
    ensures |parts| <= |results|
    ensures used + TotalWords(parts) <= (if maxTokens > used then maxTokens else used)
    decreases |results|
  {
    if results == [] then []
    else
      var content := results[0].content;
      var n := WordCount(content);
      if used + n <= maxTokens then
        var rest := ContextParts(results[1..], maxTokens, used + n);
        assert ([content] + rest)[1..] == rest;
        [content] + rest
      else
        var remaining := maxTokens - used;
        if remaining > 0 then
          var cut := CutTo(content, remaining);
          assert [cut][1..] == [];
          [cut]
        else []
  }

  /** One step of the walk. */
  lemma ContextPartsStep(results: seq<Hit>, maxTokens: int, used: nat)
    requires results != []
    ensures ContextParts(results, maxTokens, used)
         == if used + WordCount(results[0].content) <= maxTokens then
              [results[0].content] + ContextParts(results[1..], maxTokens, used + WordCount(results[0].content))
            else if used < maxTokens then [CutTo(results[0].content, maxTokens - used)]
            else []
  {
  }

  /** Taking the first snippet whole moves the prefix sums along by one. */
  lemma SpentShift(results: seq<Hit>, used: nat, j: nat)
    requires j < |results|
    ensures Spent(results[1..], used + WordCount(results[0].content), j) == Spent(results, used, j + 1)
  {
    var a := Contents(results[..j + 1]);
    assert a[1..] == Contents(results[1..][..j]);
  }

  lemma ContentsShift(results: seq<Hit>, k: nat)
    requires k < |results|
    ensures Contents(results[..k + 1]) == [results[0].content] + Contents(results[1..][..k])
  {
  }

  lemma FitBeforeShift(results: seq<Hit>, maxTokens: int, used: nat, k: nat)
    requires k < |results|
    ensures FitBefore(results, maxTokens, used, k + 1)
        <==> used + WordCount(results[0].content) <= maxTokens
             && FitBefore(results[1..], maxTokens, used + WordCount(results[0].content), k)
  {
    var used' := used + WordCount(results[0].content);
    assert Spent(results, used, 0) == used;
    forall j | 0 <= j < k
      ensures Spent(results, used, j + 1) + WordCount(results[j + 1].content)
           == Spent(results[1..], used', j) + WordCount(results[1..][j].content)
    {
      SpentShift(results, used, j);
    }
    if FitBefore(results, maxTokens, used, k + 1) {
      forall j | 0 <= j < k
        ensures Spent(results[1..], used', j) + WordCount(results[1..][j].content) <= maxTokens
      {
        assert Spent(results, used, j + 1) + WordCount(results[j + 1].content) <= maxTokens;
      }
    }
    if used' <= maxTokens && FitBefore(results[1..], maxTokens, used', k) {
      forall j | 0 <= j < k + 1
        ensures Spent(results, used, j) + WordCount(results[j].content) <= maxTokens
      {
        if j > 0 {
          assert Spent(results[1..], used', j - 1) + WordCount(results[1..][j - 1].content) <= maxTokens;
        }
      }
    }
  }

  lemma TailShift(results: seq<Hit>, maxTokens: int, used: nat, k: nat)
    requires k < |results|
    ensures OverflowsAt(results, maxTokens, used, k + 1)
        <==> OverflowsAt(results[1..], maxTokens, used + WordCount(results[0].content), k)
    ensures OverflowsAt(results, maxTokens, used, k + 1) ==>
              CutPart(results, maxTokens, used, k + 1)
              == CutPart(results[1..], maxTokens, used + WordCount(results[0].content), k)
  {
    if k + 1 < |results| {
      SpentShift(results, used, k);
      assert results[k + 1] == results[1..][k];
    }
  }

  /** A snippet that fits is taken whole and the walk goes on. */
  lemma ContextTakesWhole(results: seq<Hit>, maxTokens: int, used: nat, k: nat, rest: seq<string>)
    requires results != [] && used + WordCount(results[0].content) <= maxTokens
    requires IsContextAt(results[1..], maxTokens, used + WordCount(results[0].content), k, rest)
    ensures IsContextAt(results, maxTokens, used, k + 1, [results[0].content] + rest)
  {
    FitBeforeShift(results, maxTokens, used, k);
    TailShift(results, maxTokens, used, k);
    ContentsShift(results, k);
  }

  /** Conversely, a context that takes the first snippet whole continues as
      the context of the remaining snippets. */
  lemma ContextDropsWhole(results: seq<Hit>, maxTokens: int, used: nat, k: nat, parts: seq<string>)
    requires IsContextAt(results, maxTokens, used, k, parts) && k > 0
    ensures used + WordCount(results[0].content) <= maxTokens
    ensures parts == [results[0].content] + parts[1..]
    ensures IsContextAt(results[1..], maxTokens, used + WordCount(results[0].content), k - 1, parts[1..])
  {
    var used' := used + WordCount(results[0].content);
    FitBeforeShift(results, maxTokens, used, k - 1);
    TailShift(results, maxTokens, used, k - 1);
    ContentsShift(results, k - 1);
    var whole := Contents(results[1..][..k - 1]);
    var cut := CutPart(results[1..], maxTokens, used', k - 1);
    assert parts == [results[0].content] + (whole + cut);
    assert parts[1..] == whole + cut;
  }

  /** The first snippet that does not fit ends the context: cut to exactly
      the remaining budget when some is left, dropped otherwise. */
  lemma ContextCuts(results: seq<Hit>, maxTokens: int, used: nat)
    requires results != [] && used + WordCount(results[0].content) > maxTokens
    ensures IsContextAt(results, maxTokens, used, 0,
              if used < maxTokens then [CutTo(results[0].content, maxTokens - used)] else [])
    ensures used < maxTokens ==> WordCount(CutTo(results[0].content, maxTokens - used)) == maxTokens - used
  {
    assert Spent(results, used, 0) == used;
    assert FitBefore(results, maxTokens, used, 0);
  }

  /** `ContextParts` meets the description of the context, `k` being the
      rank at which the walk stops. */
  lemma {:induction false} ContextPartsWalk(results: seq<Hit>, maxTokens: int, used: nat) returns (k: nat)
    ensures IsContextAt(results, maxTokens, used, k, ContextParts(results, maxTokens, used))
    decreases |results|
  {
    if results == [] {
      assert FitBefore(results, maxTokens, used, 0);
      k := 0;
    } else if used + WordCount(results[0].content) <= maxTokens {
      var used' := used + WordCount(results[0].content);
      var k' := ContextPartsWalk(results[1..], maxTokens, used');
      ContextTakesWhole(results, maxTokens, used, k', ContextParts(results[1..], maxTokens, used'));
      ContextPartsStep(results, maxTokens, used);
      k := k' + 1;
    } else {
      ContextCuts(results, maxTokens, used);
      ContextPartsStep(results, maxTokens, used);
      k := 0;
    }
  }

  /** The description determines the context: whatever meets it is what
      `ContextParts` returns. */
  lemma {:induction false} ContextUnique(results: seq<Hit>, maxTokens: int, used: nat, k: nat, parts: seq<string>)
    requires IsContextAt(results, maxTokens, used, k, parts)
    ensures parts == ContextParts(results, maxTokens, used)
    decreases |results|
  {
    if results == [] {
    } else if k > 0 {
      ContextDropsWhole(results, maxTokens, used, k, parts);
      ContextUnique(results[1..], maxTokens, used + WordCount(results[0].content), k - 1, parts[1..]);
      ContextPartsStep(results, maxTokens, used);
    } else {
      ContextPartsStep(results, maxTokens, used);
      assert Spent(results, used, 0) == used;
      assert FitBefore(results, maxTokens, used, 0);
    }
  }

  /** `get_relevant_context` before joining: the parts taken from the top
      three hits. */
  function RelevantParts(store: seq<Json>, query: string, maxTokens: int): (r: Result<seq<string>, QueryError>)
    ensures r.Ok? <==> AllRecords(store)
    ensures r.Ok? ==> |r.value| <= 3
    ensures r.Ok? ==> TotalWords(r.value) <= if maxTokens > 0 then maxTokens else 0
  {
    match Query(store, query, ContextResults)
    case Err(e) => Err(e)
    case Ok(hits) => Ok(ContextParts(hits, maxTokens, 0))
  }

  /** The parts are the budgeted context of the top three hits of the query,
      with nothing spent before the walk. */
  lemma RelevantPartsAreContext(store: seq<Json>, query: string, maxTokens: int) returns (k: nat)
    requires AllRecords(store)
    ensures RelevantParts(store, query, maxTokens).Ok? && Query(store, query, ContextResults).Ok?
    ensures IsContextAt(Query(store, query, ContextResults).value, maxTokens, 0, k,
                        RelevantParts(store, query, maxTokens).value)
  {
    k := ContextPartsWalk(Query(store, query, ContextResults).value, maxTokens, 0);
  }

  /** `get_relevant_context`: the parts joined by blank lines, so that its
      words are those of the parts in order, never more than the budget. */
  function GetRelevantContext(store: seq<Json>, query: string, maxTokens: int): (r: Result<string, QueryError>)
    ensures r.Ok? <==> AllRecords(store)
    ensures r.Ok? ==> Split(r.value) == WordsOf(RelevantParts(store, query, maxTokens).value)
    ensures r.Ok? ==> WordCount(r.value) <= if maxTokens > 0 then maxTokens else 0
  {
    match RelevantParts(store, query, maxTokens)
    case Err(e) => Err(e)
    case Ok(parts) =>
      ParagraphBreakIsSpace();
      SplitJoin(ParagraphBreak, parts);
      Ok(JoinWith(ParagraphBreak, parts))
  }

  /** The separator between context parts: a blank line. */
  const ParagraphBreak: string := "\n\n"

  lemma ParagraphBreakIsSpace()
    ensures |ParagraphBreak| > 0 && AllSpace(ParagraphBreak)
  {
  }

  /** What `check_compliance` returns. */
  datatype ComplianceAnswer = ComplianceAnswer(compliant: bool, issues: seq<string>, suggestions: seq<string>, contextUsed: string)

  /** `check_compliance`: always compliant with no issues, carrying the
      retrieved context for the regulation query; the document is not read. */
  function CheckCompliance(store: seq<Json>, documentContent: string, regulationQuery: string): (r: Result<ComplianceAnswer, QueryError>)
    ensures r.Ok? <==> AllRecords(store)
    ensures r.Ok? ==> r.value.compliant && r.value.issues == [] && r.value.suggestions == []
    ensures r.Ok? ==> WordCount(r.value.contextUsed) <= DefaultMaxTokens
    ensures r.Ok? ==> r.value.contextUsed == GetRelevantContext(store, regulationQuery, DefaultMaxTokens).value
  {
    match GetRelevantContext(store, regulationQuery, DefaultMaxTokens)
    case Err(e) => Err(e)
    case Ok(context) => Ok(ComplianceAnswer(true, [], [], context))
  }

  /** The verdict of `check_compliance` does not depend on the document. */
  lemma CheckComplianceIgnoresDocument(store: seq<Json>, a: string, b: string, regulationQuery: string)
    ensures CheckCompliance(store, a, regulationQuery) == CheckCompliance(store, b, regulationQuery)
  {
  }

  /** The result of `add_document`: the new store and the new snippet's index. */
  datatype Added = Added(engine: Engine, index: nat)

  /** `add_document`: appends `{"content": content, "metadata": metadata or {}}`
      and returns its index. */
  function AddDocument(e: Engine, content: string, metadata: Option<seq<(string, Json)>>): (r: Added)
    ensures |r.engine.documents| == |e.documents| + 1
    ensures r.engine.documents[..|e.documents|] == e.documents
    ensures r.index == |e.documents| && r.engine.filename == e.filename
    ensures var added := r.engine.documents[r.index];
      added.JObject? && ContentOf(added.fields) == JString(content)
      && Lookup(added.fields, "metadata") == Some(JObject(metadata.GetOr([])))
  {
    var entry := JObject([("content", JString(content)), ("metadata", JObject(metadata.GetOr([])))]);
    Added(Engine(e.filename, e.documents + [entry]), |e.documents|)
  }

  /** After `add_document`, a query yields the old hits followed by the hit of
      the new snippet, when some query word occurs in its content. */
  lemma AddedSnippetIsCandidate(e: Engine, content: string, metadata: Option<seq<(string, Json)>>, query: string)
    requires MatchCount(QueryWords(query), Lower(content)) > 0
    ensures var qw := QueryWords(query);
      var added := AddDocument(e, content, metadata).engine.documents;
      Candidates(added, qw) == Candidates(e.documents, qw)
        + [Hit(content, JObject(metadata.GetOr([])), MatchCount(qw, Lower(content)) as real / |qw| as real)]
  {
    var qw := QueryWords(query);
    var r := AddDocument(e, content, metadata);
    var entry := r.engine.documents[r.index];
    assert r.engine.documents == e.documents + [entry];
    CandidatesAppend(e.documents, [entry], qw);
    assert [entry][1..] == [];
  }

  /** The dict branch of loading: list values are spliced in, any other value
      is appended as one entry, in key order. */
  function Flatten(fields: seq<(string, Json)>): (r: seq<Json>)
    ensures forall x :: x in r ==> exists i :: 0 <= i < |fields| && x in ValueEntries(fields[i].1)
  {
    if fields == [] then []
    else
      var rest := Flatten(fields[1..]);
      assert forall i :: 0 <= i < |fields| - 1 ==> fields[1..][i] == fields[i + 1];
      ValueEntries(fields[0].1) + rest
  }

  /** The entries one value of the object contributes. */
  function ValueEntries(v: Json): seq<Json> {
    match v
    case JArray(items) => items
    case _ => [v]
  }

  /** Flattening keeps key order: the entries of two key ranges follow each other. */
  lemma {:induction false} FlattenAppend(a: seq<(string, Json)>, b: seq<(string, Json)>)
    ensures Flatten(a + b) == Flatten(a) + Flatten(b)
  {
    if a == [] {
      assert a + b == b;
    } else {
      var hd := ValueEntries(a[0].1);
      assert (a + b)[0] == a[0] && (a + b)[1..] == a[1..] + b;
      assert Flatten(a + b) == hd + Flatten(a[1..] + b);
      FlattenAppend(a[1..], b);
      ConcatAssoc(hd, Flatten(a[1..]), Flatten(b));
    }
  }

  /** The entries of field `i` sit, in their own order, between those of the
      fields before and after it. */
  lemma {:induction false} FlattenField(fields: seq<(string, Json)>, i: nat)
    requires i < |fields|
    ensures Flatten(fields) == Flatten(fields[..i]) + ValueEntries(fields[i].1) + Flatten(fields[i + 1..])
  {
    assert fields == fields[..i] + ([fields[i]] + fields[i + 1..]);
    FlattenAppend(fields[..i], [fields[i]] + fields[i + 1..]);
    FlattenAppend([fields[i]], fields[i + 1..]);
    assert Flatten([fields[i]]) == ValueEntries(fields[i].1) by {
      assert [fields[i]][1..] == [];
    }
  }

  /** Every element of every list value, and every non-list value, is loaded. */
  lemma {:induction false} FlattenKeepsValues(fields: seq<(string, Json)>, i: nat)
    requires i < |fields|
    ensures fields[i].1.JArray? ==> forall x :: x in fields[i].1.items ==> x in Flatten(fields)
    ensures !fields[i].1.JArray? ==> fields[i].1 in Flatten(fields)
  {
    if i > 0 {
      FlattenKeepsValues(fields[1..], i - 1);
      assert fields[1..][i - 1] == fields[i];
    }
  }

  /** `load_knowledge_base` given what reading the file produced (`None` when it
      could not be opened or decoded) and the JSON parser (`None` on malformed
      input). A `.json` object extends the current entries, a `.json` list
      replaces them, any other JSON value becomes the only entry, and another
      file becomes one entry holding its text and name; every failure leaves
      the store empty. */
  function LoadKnowledgeBase(current: seq<Json>, filename: string, contents: Option<string>,
                             parseJson: string -> Option<Json>): (r: seq<Json>)
    ensures contents.None? ==> r == []
    ensures contents.Some? && EndsWith(filename, ".json") ==>
      match parseJson(contents.value)
      case None => r == []
      case Some(JObject(fields)) => |current| <= |r| && r[..|current|] == current && r[|current|..] == Flatten(fields)
      case Some(JArray(items)) => r == items
      case Some(other) => r == [other]
    ensures contents.Some? && !EndsWith(filename, ".json") ==>
      |r| == 1 && r[0].JObject? && ContentOf(r[0].fields) == JString(contents.value)
      && Lookup(r[0].fields, "source") == Some(JString(filename))
      && |r[0].fields| == 2 && Lookup(r[0].fields, "metadata").None?
  {
    match contents
    case None => []
    case Some(text) =>
      if EndsWith(filename, ".json") then
        match parseJson(text)
        case None => []
        case Some(JObject(fields)) =>
          assert (current + Flatten(fields))[..|current|] == current;
          current + Flatten(fields)
        case Some(JArray(items)) => items
        case Some(other) => [other]
      else [JObject([("content", JString(text)), ("source", JString(filename))])]
  }

  /** A snippet loaded from a text file carries no metadata, so any hit it
      yields has the default `{}`. */
  lemma TextSnippetHasNoMetadata(current: seq<Json>, filename: string, text: string,
                                 parseJson: string -> Option<Json>, queryWords: seq<string>)
    requires !EndsWith(filename, ".json")
    ensures var r := LoadKnowledgeBase(current, filename, Some(text), parseJson);
      HitOf(r[0], queryWords).Some? ==> HitOf(r[0], queryWords).value.metadata == JObject([])
  {
  }

  /** The engine constructor: loads only when a non-empty file name is given
      and the file exists; otherwise the store is empty. */
  function NewEngine(filename: Option<string>, fileExists: bool, contents: Option<string>,
                     parseJson: string -> Option<Json>): (e: Engine)
    ensures e.filename == filename
    ensures (filename.None? || filename.value == [] || !fileExists) ==> e.documents == []
    ensures filename.Some? && filename.value != [] && fileExists ==>
      e.documents == LoadKnowledgeBase([], filename.value, contents, parseJson)
  {
    if filename.Some? && filename.value != [] && fileExists
    then Engine(filename, LoadKnowledgeBase([], filename.value, contents, parseJson))
    else Engine(filename, [])
  }
}

=== FILE: seqs.dfy ===
/** Order-preserving relations between sequences. */
module Seqs {

  /** `a` can be obtained from `b` by deleting elements, keeping the order. */
  predicate IsSubsequence<T(==)>(a: seq<T>, b: seq<T>)
    decreases |b|
  {
    if a == [] then true
    else if b == [] then false
    else (a[0] == b[0] && IsSubsequence(a[1..], b[1..])) || IsSubsequence(a, b[1..])
  }

  /** Putting the same element in front of both keeps a subsequence, and so
      does putting one in front of the longer sequence only. */
  lemma SubsequencePrepend<T>(a: seq<T>, b: seq<T>, x: T)
    requires IsSubsequence(a, b)
    ensures IsSubsequence([x] + a, [x] + b)
    ensures IsSubsequence(a, [x] + b)
  {
    assert ([x] + a)[1..] == a;
    assert ([x] + b)[1..] == b;
  }

  /** A subsequence is no longer than the sequence it is taken from. */
  lemma {:induction false} SubsequenceLength<T>(a: seq<T>, b: seq<T>)
    requires IsSubsequence(a, b)
    ensures |a| <= |b|
    decreases |b|
  {
    if a != [] {
      if a[0] == b[0] && IsSubsequence(a[1..], b[1..]) {
        SubsequenceLength(a[1..], b[1..]);
      } else {
        SubsequenceLength(a, b[1..]);
      }
    }
  }

  /** Every element of a subsequence is an element of the whole. */
  lemma {:induction false} SubsequenceMembership<T>(a: seq<T>, b: seq<T>, x: T)
    requires IsSubsequence(a, b) && x in a
    ensures x in b
    decreases |b|
  {
    if a[0] == b[0] && IsSubsequence(a[1..], b[1..]) {
      if x != a[0] {
        assert x in a[1..];
        SubsequenceMembership(a[1..], b[1..], x);
      }
    } else {
      SubsequenceMembership(a, b[1..], x);
    }
  }

  lemma ConcatAssoc<T>(x: seq<T>, y: seq<T>, z: seq<T>)
    ensures (x + y) + z == x + (y + z)
  {
  }

  /** Python `s[:n]`: a prefix, where a negative `n` counts from the end. */
  function PyPrefix<T>(s: seq<T>, n: int): (r: seq<T>)
    ensures |r| <= |s| && r == s[..|r|]
    ensures n >= 0 ==> |r| == if n < |s| then n else |s|
    ensures n < 0 ==> |r| == if |s| + n > 0 then |s| + n else 0
  {
    if n >= 0 then (if n < |s| then s[..n] else s)
    else (if |s| + n > 0 then s[..|s| + n] else [])
  }
}

=== FILE: text.dfy ===
/** Character classes and string helpers with Python `str` semantics,
    restricted to ASCII case mapping. */
module Text {

  /** Python `str.isspace` on ASCII: tab, line feed, vertical tab, form feed,
      carriage return, the four separators 0x1C..0x1F, and space. */
  predicate IsSpace(c: char) {
    c == ' ' || (9 <= c as int <= 13) || (28 <= c as int <= 31)
  }

  predicate IsAsciiUpper(c: char) { 'A' <= c <= 'Z' }

  predicate IsAsciiLower(c: char) { 'a' <= c <= 'z' }

  predicate IsDigit(c: char) { '0' <= c <= '9' }

  function LowerChar(c: char): (r: char)
    ensures !IsAsciiUpper(r)
    ensures IsAsciiUpper(c) ==> r as int == c as int + 32
    ensures !IsAsciiUpper(c) ==> r == c
  {
    if IsAsciiUpper(c) then (c as int + 32) as char else c
  }

  /** Python `str.lower()` restricted to ASCII letters. */
  function Lower(s: string): (r: string)
    ensures |r| == |s|
    ensures forall i :: 0 <= i < |s| ==> r[i] == LowerChar(s[i])
  {
    seq(|s|, i requires 0 <= i < |s| => LowerChar(s[i]))
  }

  predicate IsPrefix(p: string, s: string) {
    |p| <= |s| && s[..|p|] == p
  }

  /** Python `needle in hay`: some position of `hay` starts with `needle`. */
  predicate IsSubstring(needle: string, hay: string)
    decreases |hay|
  {
    IsPrefix(needle, hay) || (|hay| > 0 && IsSubstring(needle, hay[1..]))
  }

  /** `IsSubstring` means what Python's `in` means on strings: an occurrence
      at some offset. */
  lemma {:induction false} SubstringAtOffset(needle: string, hay: string)
    ensures IsSubstring(needle, hay) <==> exists i :: 0 <= i <= |hay| && IsPrefix(needle, hay[i..])
    decreases |hay|
  {
    if IsSubstring(needle, hay) {
      if IsPrefix(needle, hay) {
        assert hay[0..] == hay;
      } else {
        SubstringAtOffset(needle, hay[1..]);
        var i :| 0 <= i <= |hay[1..]| && IsPrefix(needle, hay[1..][i..]);
        assert hay[1..][i..] == hay[i + 1..];
      }
    }
    if exists i :: 0 <= i <= |hay| && IsPrefix(needle, hay[i..]) {
      var i :| 0 <= i <= |hay| && IsPrefix(needle, hay[i..]);
      if i == 0 {
        assert hay[0..] == hay;
      } else {
        assert hay[1..][i - 1..] == hay[i..];
        SubstringAtOffset(needle, hay[1..]);
      }
    }
  }

  /** A non-empty needle never occurs in the empty string. */
  lemma NonEmptyNotInEmpty(needle: string)
    requires |needle| > 0
    ensures !IsSubstring(needle, [])
  {
  }

  predicate EndsWith(s: string, suffix: string) {
    |suffix| <= |s| && s[|s| - |suffix|..] == suffix
  }

  /** Python `str.lstrip()`: drops the leading whitespace. */
  function TrimStart(s: string): (r: string)
    ensures |r| <= |s|
  {
    if s != [] && IsSpace(s[0]) then TrimStart(s[1..]) else s
  }

  /** What `TrimStart` leaves is a suffix starting with a non-space, and what
      it drops is whitespace. */
  lemma {:induction false} TrimStartShape(s: string)
    ensures var r := TrimStart(s);
      && r == s[|s| - |r|..]
      && (r == [] || !IsSpace(r[0]))
      && forall i :: 0 <= i < |s| - |r| ==> IsSpace(s[i])
  {
    if s != [] && IsSpace(s[0]) {
      TrimStartShape(s[1..]);
      var r := TrimStart(s);
      forall i | 1 <= i < |s| - |r| ensures IsSpace(s[i]) {
        assert s[i] == s[1..][i - 1];
      }
    }
  }

  /** Python `str.rstrip()`: drops the trailing whitespace. */
  function TrimEnd(s: string): (r: string)
    ensures |r| <= |s| && r == s[..|r|]
    ensures r == [] || !IsSpace(r[|r| - 1])
    ensures forall i :: |r| <= i < |s| ==> IsSpace(s[i])
  {
    if s != [] && IsSpace(s[|s| - 1]) then TrimEnd(s[..|s| - 1]) else s
  }

  /** Python `str.strip()`: the string without leading and trailing whitespace. */
  function Strip(s: string): (r: string)
    ensures |r| <= |s|
    ensures r == [] || (!IsSpace(r[0]) && !IsSpace(r[|r| - 1]))
    ensures r == [] ==> forall i :: 0 <= i < |s| ==> IsSpace(s[i])
  {
    var t := TrimStart(s);
    TrimStartShape(s);
    TrimEnd(t)
  }

  /** The stripped string is the slice of `s` between a whitespace prefix and
      a whitespace suffix. */
  lemma StripShape(s: string)
    ensures var r := Strip(s); var a := |s| - |TrimStart(s)|;
      && a + |r| <= |s| && r == s[a..a + |r|]
      && (forall i :: 0 <= i < a ==> IsSpace(s[i]))
      && (forall i :: a + |r| <= i < |s| ==> IsSpace(s[i]))
  {
    TrimStartShape(s);
    var t := TrimStart(s);
    var a := |s| - |t|;
    var r := TrimEnd(t);
    assert t == s[a..];
    assert r == t[..|r|];
    assert s[a..][..|r|] == s[a..a + |r|];
    forall i | a + |r| <= i < |s| ensures IsSpace(s[i]) {
      assert s[i] == t[i - a];
    }
  }

  /** Stripping twice is stripping once. */
  lemma StripIdempotent(s: string)
    ensures Strip(Strip(s)) == Strip(s)
  {
    var r := Strip(s);
    if r != [] {
      TrimStartShape(r);
      assert TrimStart(r) == r;
      assert TrimEnd(r) == r;
    }
  }

  /** Python `sep.join(parts)`. */
  function JoinWith(sep: string, parts: seq<string>): (r: string)
    ensures |parts| == 1 ==> r == parts[0]
  {
    if |parts| == 0 then []
    else if |parts| == 1 then parts[0]
    else parts[0] + sep + JoinWith(sep, parts[1..])
  }

  /** Python `s.split('\n')`: the pieces between line feeds, empty ones kept. */
  function SplitLines(s: string): (r: seq<string>)
    ensures |r| >= 1
    ensures forall i :: 0 <= i < |r| ==> '\n' !in r[i]
    decreases |s|
  {
    if s == [] then [[]]
    else
      var rest := SplitLines(s[1..]);
      if s[0] == '\n' then [[]] + rest
      else [[s[0]] + rest[0]] + rest[1..]
  }

  /** Joining the pieces with line feeds gives back the text. */
  lemma {:induction false} JoinSplitLines(s: string)
    ensures JoinWith("\n", SplitLines(s)) == s
    decreases |s|
  {
    if s != [] {
      var rest := SplitLines(s[1..]);
      JoinSplitLines(s[1..]);
      if s[0] == '\n' {
        assert SplitLines(s) == [[]] + rest;
        assert ([[]] + rest)[1..] == rest;
        assert [s[0]] + s[1..] == s;
      } else {
        var parts := [[s[0]] + rest[0]] + rest[1..];
        assert SplitLines(s) == parts;
        if |rest| == 1 {
          assert [s[0]] + s[1..] == s;
        } else {
          assert parts[1..] == rest[1..];
          assert rest == [rest[0]] + rest[1..];
          assert JoinWith("\n", rest) == rest[0] + "\n" + JoinWith("\n", rest[1..]);
          assert [s[0]] + s[1..] == s;
        }
      }
    }
  }

  /** A line without a line feed followed by a line feed starts a new piece. */
  lemma {:induction false} SplitLinesAfterLine(x: string, y: string)
    requires '\n' !in x
    ensures SplitLines(x + "\n" + y) == [x] + SplitLines(y)
    decreases |x|
  {
    if x == [] {
      assert x + "\n" + y == "\n" + y;
      assert ("\n" + y)[1..] == y;
    } else {
      SplitLinesAfterLine(x[1..], y);
      assert (x + "\n" + y)[1..] == x[1..] + "\n" + y;
      assert [x[0]] + x[1..] == x;
    }
  }

  /** A line without a line feed is a single piece. */
  lemma {:induction false} SplitLinesOfLine(x: string)
    requires '\n' !in x
    ensures SplitLines(x) == [x]
    decreases |x|
  {
    if x != [] {
      SplitLinesOfLine(x[1..]);
      assert [x[0]] + x[1..] == x;
    }
  }

  /** Splitting the joined lines gives back the lines. */
  lemma {:induction false} SplitJoinLines(lines: seq<string>)
    requires |lines| >= 1
    requires forall i :: 0 <= i < |lines| ==> '\n' !in lines[i]
    ensures SplitLines(JoinWith("\n", lines)) == lines
  {
    if |lines| == 1 {
      SplitLinesOfLine(lines[0]);
    } else {
      SplitJoinLines(lines[1..]);
      SplitLinesAfterLine(lines[0], JoinWith("\n", lines[1..]));
    }
  }

  /** Python `str.isupper()` on ASCII: some letter and no lower-case letter. */
  predicate IsUpper(s: string) {
    (exists i :: 0 <= i < |s| && IsAsciiUpper(s[i]))
    && forall i :: 0 <= i < |s| ==> !IsAsciiLower(s[i])
  }

  /** The length of the run of decimal digits at the start of `s`. */
  function LeadingDigits(s: string): (n: nat)
    ensures n <= |s|
    ensures forall i :: 0 <= i < n ==> IsDigit(s[i])
    ensures n < |s| ==> !IsDigit(s[n])
  {
    if s != [] && IsDigit(s[0]) then 1 + LeadingDigits(s[1..]) else 0
  }

  predicate AllDigits(s: string) {
    forall i :: 0 <= i < |s| ==> IsDigit(s[i])
  }

  /** `re.match(r'^\d+\.', s)` with ASCII digits. */
  predicate StartsNumbered(s: string) {
    var d := LeadingDigits(s);
    0 < d < |s| && s[d] == '.'
  }

  /** `StartsNumbered` holds exactly when one or more digits are followed by a
      period, which is what the pattern `^\d+\.` accepts. */
  lemma NumberedPattern(s: string)
    ensures StartsNumbered(s) <==> exists k :: 1 <= k < |s| && AllDigits(s[..k]) && s[k] == '.'
  {
    var d := LeadingDigits(s);
    if exists k :: 1 <= k < |s| && AllDigits(s[..k]) && s[k] == '.' {
      var k :| 1 <= k < |s| && AllDigits(s[..k]) && s[k] == '.';
      assert d == k;
    }
    if StartsNumbered(s) {
      assert AllDigits(s[..d]);
    }
  }

  function DigitChar(d: nat): (c: char)
    requires d < 10
    ensures IsDigit(c)
  {
    ('0' as int + d) as char
  }

  /** The decimal rendering of `n`, as Python's `str(n)` and f-strings print it. */
  function NatToString(n: nat): (r: string)
    ensures |r| > 0 && AllDigits(r)
    ensures r[0] == '0' ==> n == 0
  {
    if n < 10 then [DigitChar(n)] else NatToString(n / 10) + [DigitChar(n % 10)]
  }

  /** The number a string of decimal digits denotes. */
  function DigitsValue(s: string): nat
    requires AllDigits(s)
  {
    if s == [] then 0 else 10 * DigitsValue(s[..|s| - 1]) + (s[|s| - 1] as int - '0' as int)
  }

  /** Reading back the decimal rendering gives the number. */
  lemma {:induction false} NatToStringRoundTrip(n: nat)
    ensures DigitsValue(NatToString(n)) == n
  {
    if n >= 10 {
      var r := NatToString(n);
      NatToStringRoundTrip(n / 10);
      assert r[..|r| - 1] == NatToString(n / 10);
    }
  }

  function IntToString(i: int): (r: string)
    ensures |r| > 0
    ensures i >= 0 <==> r[0] != '-'
  {
    if i < 0 then "-" + NatToString(-i) else NatToString(i)
  }
}

=== FILE: words.dfy ===
/** Python `str.split()` with no separator: the maximal runs of
    non-whitespace characters, and how it interacts with `join`. */
module Words {
  import opened Text
  import opened Seqs

  /** The separator of `' '.join(words)`. */
  const Space: string := " "

  /** What `str.split()` can yield: a non-empty run without whitespace. */
  predicate IsWord(w: string) {
    |w| > 0 && forall i :: 0 <= i < |w| ==> !IsSpace(w[i])
  }

  /** The leading run of non-whitespace characters. */
  function TakeWord(s: string): (r: string)
    ensures |r| <= |s|
    ensures s != [] && !IsSpace(s[0]) ==> |r| > 0
  {
    if s == [] || IsSpace(s[0]) then [] else [s[0]] + TakeWord(s[1..])
  }

  /** The leading word is a prefix of non-spaces, ended by a space or the end. */
  lemma {:induction false} TakeWordShape(s: string)
    ensures var r := TakeWord(s);
      && r == s[..|r|]
      && (forall i :: 0 <= i < |r| ==> !IsSpace(r[i]))
      && (|r| < |s| ==> IsSpace(s[|r|]))
  {
    if s != [] && !IsSpace(s[0]) {
      TakeWordShape(s[1..]);
      var r := TakeWord(s);
      assert r == [s[0]] + TakeWord(s[1..]);
      forall i | 1 <= i < |r| ensures !IsSpace(r[i]) {
        assert r[i] == TakeWord(s[1..])[i - 1];
      }
    }
  }

  /** Python `s.split()`. */
  function Split(s: string): seq<string>
    decreases |s|
  {
    var t := TrimStart(s);
    if t == [] then []
    else
      TrimStartShape(s);
      var w := TakeWord(t);
      [w] + Split(t[|w|..])
  }

  /** Every piece of a split is a word. */
  lemma {:induction false} SplitYieldsWords(s: string)
    ensures forall i :: 0 <= i < |Split(s)| ==> IsWord(Split(s)[i])
    decreases |s|
  {
    var t := TrimStart(s);
    if t != [] {
      var w := TakeWord(t);
      TakeWordShape(t);
      TrimStartShape(s);
      SplitYieldsWords(t[|w|..]);
      var r := Split(s);
      assert r == [w] + Split(t[|w|..]);
      forall i | 0 <= i < |r| ensures IsWord(r[i]) {
        if i > 0 {
          assert r[i] == Split(t[|w|..])[i - 1];
        }
      }
    }
  }

  /** Python `len(s.split())`. */
  function WordCount(s: string): nat {
    |Split(s)|
  }

  /** The summed word counts of several strings. */
  function TotalWords(parts: seq<string>): nat {
    if parts == [] then 0 else WordCount(parts[0]) + TotalWords(parts[1..])
  }

  /** The words of several strings, in order. */
  function WordsOf(parts: seq<string>): (r: seq<string>)
    ensures |r| == TotalWords(parts)
  {
    if parts == [] then [] else Split(parts[0]) + WordsOf(parts[1..])
  }

  predicate AllSpace(s: string) {
    forall i :: 0 <= i < |s| ==> IsSpace(s[i])
  }

  lemma {:induction false} TrimStartAppend(x: string, y: string)
    ensures TrimStart(x + y) == if TrimStart(x) == [] then TrimStart(y) else TrimStart(x) + y
    decreases |x|
  {
    if x != [] {
      assert (x + y)[0] == x[0];
      if IsSpace(x[0]) {
        assert (x + y)[1..] == x[1..] + y;
        TrimStartAppend(x[1..], y);
      }
    } else {
      assert x + y == y;
    }
  }

  lemma {:induction false} TakeWordAppend(x: string, y: string)
    requires y == [] || IsSpace(y[0])
    ensures TakeWord(x + y) == TakeWord(x)
    decreases |x|
  {
    if x == [] {
      assert x + y == y;
    } else {
      assert (x + y)[0] == x[0];
      if !IsSpace(x[0]) {
        assert (x + y)[1..] == x[1..] + y;
        TakeWordAppend(x[1..], y);
      }
    }
  }

  lemma AllSpaceTrims(c: string)
    requires AllSpace(c)
    ensures TrimStart(c) == []
  {
  }

  /** `Split` only looks at the text after its leading whitespace. */
  lemma SplitAfterTrim(x: string, y: string)
    requires TrimStart(x) == TrimStart(y)
    ensures Split(x) == Split(y)
  {
  }

  /** One step of `Split` on text that still holds a word. */
  lemma SplitStep(s: string, t: string, w: string)
    requires t == TrimStart(s) && t != [] && w == TakeWord(t)
    ensures Split(s) == [w] + Split(t[|w|..])
  {
  }

  lemma SliceAppend(x: string, y: string, k: nat)
    requires k <= |x|
    ensures (x + y)[k..] == x[k..] + y
  {
  }

  /** The text after a word keeps the separator and what follows it. */
  lemma TrimAroundSpace(a: string, c: string, b: string)
    requires |c| > 0 && AllSpace(c)
    ensures TrimStart(a) == [] ==> TrimStart(a + c + b) == TrimStart(b)
    ensures TrimStart(a) != [] ==> TrimStart(a + c + b) == TrimStart(a) + (c + b)
  {
    assert a + c + b == a + (c + b);
    TrimStartAppend(a, c + b);
    AllSpaceTrims(c);
    TrimStartAppend(c, b);
  }

  /** The first word of `a` is also the first word of `a + c + b`. */
  lemma FirstWordAroundSpace(a: string, c: string, b: string)
    requires |c| > 0 && AllSpace(c) && TrimStart(a) != []
    ensures var t := TrimStart(a); var w := TakeWord(t);
      Split(a + c + b) == [w] + Split(t[|w|..] + c + b)
  {
    var t := TrimStart(a);
    var w := TakeWord(t);
    var cb := c + b;
    TrimAroundSpace(a, c, b);
    TakeWordAppend(t, cb);
    SliceAppend(t, cb, |w|);
    SplitStep(a + c + b, t + cb, w);
    assert t[|w|..] + c + b == t[|w|..] + cb;
  }

  /** Text separated by whitespace splits into the words of each side. */
  lemma {:induction false} SplitAroundSpace(a: string, c: string, b: string)
    requires |c| > 0 && AllSpace(c)
    ensures Split(a + c + b) == Split(a) + Split(b)
    decreases |a|
  {
    var u := a + c + b;
    var t := TrimStart(a);
    TrimAroundSpace(a, c, b);
    if t == [] {
      SplitAfterTrim(u, b);
      assert Split(a) == [];
    } else {
      var cb := c + b;
      var w := TakeWord(t);
      var rest := t[|w|..];
      FirstWordAroundSpace(a, c, b);
      SplitStep(a, t, w);
      SplitAroundSpace(rest, c, b);
      ConcatAssoc([w], Split(rest), Split(b));
    }
  }

  /** A single word splits into itself. */
  lemma SplitWord(w: string)
    requires IsWord(w)
    ensures Split(w) == [w]
  {
    assert TrimStart(w) == w;
    TakeWordShape(w);
    assert TakeWord(w) == w;
    assert w[|w|..] == [];
  }

  /** Joining with a whitespace separator keeps the words of every part, in
      order, and so adds up the word counts. */
  lemma {:induction false} SplitJoin(sep: string, parts: seq<string>)
    requires |sep| > 0 && AllSpace(sep)
    ensures Split(JoinWith(sep, parts)) == WordsOf(parts)
    ensures WordCount(JoinWith(sep, parts)) == TotalWords(parts)
  {
    if |parts| == 1 {
      assert parts[1..] == [];
      assert WordsOf(parts) == Split(parts[0]) + [];
    } else if |parts| > 1 {
      SplitJoin(sep, parts[1..]);
      SplitAroundSpace(parts[0], sep, JoinWith(sep, parts[1..]));
    }
  }

  /** `' '.join(words)` splits back into `words` (the words of a split). */
  lemma {:induction false} SplitJoinWords(ws: seq<string>)
    requires forall i :: 0 <= i < |ws| ==> IsWord(ws[i])
    ensures Split(JoinWith(Space, ws)) == ws
  {
    if |ws| == 1 {
      SplitWord(ws[0]);
    } else if |ws| > 1 {
      var tail := JoinWith(Space, ws[1..]);
      assert JoinWith(Space, ws) == ws[0] + Space + tail;
      SplitJoinWords(ws[1..]);
      SplitAroundSpace(ws[0], Space, tail);
      SplitWord(ws[0]);
      assert ws == [ws[0]] + ws[1..];
    }
  }

  /** The leading `k` words of `s`, joined by single spaces, count `k` words. */
  lemma PrefixWordCount(s: string, k: nat)
    requires k <= WordCount(s)
    ensures WordCount(JoinWith(Space, Split(s)[..k])) == k
  {
    SplitYieldsWords(s);
    SplitJoinWords(Split(s)[..k]);
  }
}

=== FILE: wrappers.dfy ===
/** Optional values and results with an error, used wherever the program
    falls back to a default (`dict.get`) or raises. */
module Wrappers {

  datatype Option<+T> = None | Some(value: T) {

    /** The held value, or `default` when there is none (`dict.get(key, default)`). */
    function GetOr(default: T): T {
      match this
      case Some(v) => v
      case None => default
    }
  }

  /** The outcome of an operation that raises in the program on some inputs. */
  datatype Result<+T, +E> = Ok(value: T) | Err(error: E)
}
